=== FILE: README.md ===
# Launchpad plugin core, modelled in Dafny

This project models the core of the Launchpad server plugin:
- Registered launchpad blocks carry their own launch velocities and can carry a fixed launch direction.
- Blocks of configured materials launch with the configured default velocities.
- Players change launchpads in two steps. The `/launchpad` command queues modification requests. The next right-click on a block applies them.
- Stepping on a pressure plate, or moving onto a launchpad block, launches the player.
- Breaking, burning, exploding, pushing or decaying a launchpad's block unregisters it.

The model is functional.
- A launchpad is an immutable `LaunchpadBlock` value.
- The registry is a `map<Block, LaunchpadBlock>` plus a count of data-file writes.
- The pending modification requests are a `map<PlayerId, set<Request>>`.
- Every event handler is a pure function from the old state to the new state and its visible result.

Everything the game server decides is a function field of `Host.Server`, so each property holds for every server:
- the material at a block, and whether a material is air, a block or a pressure plate;
- whether a block is passable;
- `Double.parseDouble`;
- `UUID.fromString`, which yields a UUID, a NumberFormatException (a group that is not hexadecimal) or another IllegalArgumentException (the wrong shape), and world lookup.

`BlockFace` is modelled concretely: its 19 constants, their offsets and `getDirection`. The factors 1/√2 and 1/√5 that scale the diagonal faces to unit length are server constants.

Modules, one per source class (plus shared helpers):

| module | file | models |
|---|---|---|
| `Options` | options.dfy | nullable values |
| `Strings` | strings.dfy | ASCII case folding, `contains`, `split(",")`, decimal integers |
| `Host` | host.dfy | blocks, materials, `BlockFace`, vectors, the server's primitives |
| `Configuration` | configuration.dfy | `LaunchpadConfiguration` (launchpad part) |
| `Launchpads` | launchpad_block.dfy | `LaunchpadBlock` |
| `BlockHandler` | block_handler.dfy | `LaunchpadBlockHandler` |
| `Actions` | actions.dfy | `ModificationAction`, `ModificationRequest` |
| `Requests` | requests.dfy | `ModificationRequestHandler` |
| `Command` | command.dfy | `LaunchpadCommand` |
| `TabCompleteHelper` | tab_complete_helper.dfy | `TabCompleteHelper` |
| `TabCompleter` | tab_completer.dfy | `LaunchpadTabCompleter` |
| `ModifyListener` | modify_listener.dfy | `LaunchpadModifyListener` |
| `UseListener` | use_listener.dfy | `LaunchpadUseListener` |
| `BreakListener` | break_listener.dfy | `LaunchpadBreakListener` |
| `ParticleConfig` | particle_config.dfy | `LaunchpadParticleConfig`, `ParticleMode` |

What the code does at three points where a reader might expect otherwise:
- **The whitelist is checked per request.** It is not a check on the whole batch. One click can therefore apply some requests and re-queue others.
- **The launch path checks no whitelist.** A registered launchpad launches whatever its material, and an unregistered block launches iff its material is a launchpad material.
- **`onMove` never suppresses vertical speed.** The launch velocity is always direction × horizontal + (0, vertical, 0).

Behaviours of the code that the model keeps as written:
- REMOVE on an unregistered, whitelisted block registers a new launchpad.
- A "null" velocity stores 0, not the unset marker.
- UP and DOWN pass direction validation, and the setter then ignores them.
- Reloading pins an unset (−1) velocity to 0.
- A `load` without a "launchpad" section drops the per-material velocities.

## Model

All source paths are under `src/main/java/net/knarcraft/launchpad/`; the table writes them in full.

| member | source | states |
|---|---|---|
| Launchpads.Fresh | src/main/java/net/knarcraft/launchpad/launchpad/LaunchpadBlock.java:24-29 | a launchpad made from a block alone belongs to that block and satisfies the launchpad invariant |
| Launchpads.FreshReadsDefaults | src/main/java/net/knarcraft/launchpad/launchpad/LaunchpadBlock.java:24-29 | such a launchpad reads the configured defaults for its material and has no fixed direction |
| Launchpads.SetHorizontalVelocity | src/main/java/net/knarcraft/launchpad/launchpad/LaunchpadBlock.java:96-98 | the stored horizontal velocity becomes max(0, v), always ≥ 0; block, vertical velocity and direction are untouched; the invariant is kept |
| Launchpads.SetVerticalVelocity | src/main/java/net/knarcraft/launchpad/launchpad/LaunchpadBlock.java:105-107 | the same for the vertical velocity |
| Launchpads.SetFixedDirection | src/main/java/net/knarcraft/launchpad/launchpad/LaunchpadBlock.java:114-122 | null clears the direction; a level face is stored exactly; a face with a vertical offset (UP, DOWN) leaves the launchpad as it was |
| Launchpads.Create | src/main/java/net/knarcraft/launchpad/launchpad/LaunchpadBlock.java:39-45 | the four-argument constructor stores both velocities clamped at 0 and keeps the direction only if it is level |
| Launchpads.HorizontalVelocity | src/main/java/net/knarcraft/launchpad/launchpad/LaunchpadBlock.java:61-67 | the getter returns the stored value when it is ≥ 0, otherwise the configured default for the block's material; never negative |
| Launchpads.VerticalVelocity | src/main/java/net/knarcraft/launchpad/launchpad/LaunchpadBlock.java:74-80 | the same for the vertical velocity |
| Launchpads.SetThenGetVelocity | src/main/java/net/knarcraft/launchpad/launchpad/LaunchpadBlock.java:61-107 | after a setter the getter reads max(0, v) and never consults the configuration; setting −1 reads back 0 |
| Launchpads.CreateIgnoresDefaults | src/main/java/net/knarcraft/launchpad/launchpad/LaunchpadBlock.java:39-45 | a launchpad from the four-argument constructor never reads the configured defaults |
| Configuration.LoadMaterials | src/main/java/net/knarcraft/launchpad/config/LaunchpadConfiguration.java:138-149 | the loaded set is exactly the listed materials that are blocks; a missing list gives the empty set |
| Configuration.IsNotLaunchpadMaterial | src/main/java/net/knarcraft/launchpad/config/LaunchpadConfiguration.java:87-89 | a material is "not a launchpad material" iff it is not among the launchpad materials |
| Configuration.IsMaterialWhitelisted | src/main/java/net/knarcraft/launchpad/config/LaunchpadConfiguration.java:97-99 | an empty whitelist admits every material; a non-empty one admits exactly its members |
| Configuration.Load | src/main/java/net/knarcraft/launchpad/config/LaunchpadConfiguration.java:60-79 | the file is always adopted; without a "launchpad" section the material sets and global velocities keep their old values; otherwise both material sets are exactly the listed block materials and a missing global velocity reads 0 |
| Configuration.DefaultHorizontal | src/main/java/net/knarcraft/launchpad/config/LaunchpadConfiguration.java:107-114 | a per-material value ≥ 0 wins; otherwise the global value floored at 0; never negative |
| Configuration.DefaultVertical | src/main/java/net/knarcraft/launchpad/config/LaunchpadConfiguration.java:122-129 | the same for the vertical velocity |
| Configuration.LoadWithoutSectionDropsMaterialVelocities | src/main/java/net/knarcraft/launchpad/config/LaunchpadConfiguration.java:60-67 | after a load without a "launchpad" section the whitelist and material tests answer as before, but every default falls back to the global value |
| Configuration.LoadedWhitelist | src/main/java/net/knarcraft/launchpad/config/LaunchpadConfiguration.java:97-99 | after a load, a material is whitelisted iff the loaded whitelist is empty or lists it as a block |
| Configuration.LoadedLaunchMaterialsAreBlocks | src/main/java/net/knarcraft/launchpad/config/LaunchpadConfiguration.java:87-89 | after a load, a launchpad material is a listed block material |
| BlockHandler.Get | src/main/java/net/knarcraft/launchpad/launchpad/LaunchpadBlockHandler.java:84-86 | the lookup finds a launchpad iff the block is registered, and returns the registered one |
| BlockHandler.SaveAll | src/main/java/net/knarcraft/launchpad/launchpad/LaunchpadBlockHandler.java:91-110 | saving writes the file once and leaves the map as it was |
| BlockHandler.Register | src/main/java/net/knarcraft/launchpad/launchpad/LaunchpadBlockHandler.java:61-64 | the launchpad is found under its block afterwards; every other block is unchanged; one save |
| BlockHandler.Unregister | src/main/java/net/knarcraft/launchpad/launchpad/LaunchpadBlockHandler.java:71-76 | the block is not found afterwards; every other block is unchanged; a save happens only when the block was registered, and otherwise nothing changes |
| BlockHandler.UnregisterIdempotent | src/main/java/net/knarcraft/launchpad/launchpad/LaunchpadBlockHandler.java:71-76 | unregistering twice is the same as once, with no second save |
| BlockHandler.RegisterOverwrites | src/main/java/net/knarcraft/launchpad/launchpad/LaunchpadBlockHandler.java:61-64 | a later registration for the same block replaces the earlier one |
| BlockHandler.StorageKey | src/main/java/net/knarcraft/launchpad/launchpad/LaunchpadBlockHandler.java:95-96 | for a comma-free world the key splits on "," into the world and the three coordinates' decimal texts |
| BlockHandler.LocateKey | src/main/java/net/knarcraft/launchpad/launchpad/LaunchpadBlockHandler.java:119-130 | a block is located only from four parts with a valid UUID naming a loaded world, at the floored parsed coordinates; a UUID of the wrong shape is an uncaught error; a UUID group that is not hexadecimal, like a non-numeric coordinate, is an invalid location |
| BlockHandler.NonHexUuidIsLogged | src/main/java/net/knarcraft/launchpad/launchpad/LaunchpadBlockHandler.java:47-53 | a key whose UUID has a non-hexadecimal group is logged as invalid and does not stop the load |
| BlockHandler.LocateStorageKey | src/main/java/net/knarcraft/launchpad/launchpad/LaunchpadBlockHandler.java:95-96 | splitting a saved key on "," and parsing its parts finds the block it was written for, for a comma-free known world |
| BlockHandler.StorageKeyInjective | src/main/java/net/knarcraft/launchpad/launchpad/LaunchpadBlockHandler.java:95-96 | distinct blocks in known worlds get distinct keys |
| BlockHandler.LoadLaunchpad | src/main/java/net/knarcraft/launchpad/launchpad/LaunchpadBlockHandler.java:119-145 | a non-numeric coordinate or non-hexadecimal UUID is reported as an invalid location; an air block is skipped; otherwise exactly that block is added, holding the launchpad built from the stored velocities (−1 when missing) and the named direction; an unknown direction name aborts the load; other blocks are unchanged |
| BlockHandler.LoadRecords | src/main/java/net/knarcraft/launchpad/launchpad/LaunchpadBlockHandler.java:47-53 | the loop survives invalid locations and logs exactly their keys in order; it completes iff no record raises an uncaught error; it only adds blocks and keeps the registry well-formed |
| BlockHandler.LoadedFromRecords | src/main/java/net/knarcraft/launchpad/launchpad/LaunchpadBlockHandler.java:119-145 | every block the loop adds is non-air and is the block located by some record's key |
| BlockHandler.LoadedValues | src/main/java/net/knarcraft/launchpad/launchpad/LaunchpadBlockHandler.java:47-53 | the loop stores at each block the launchpad built from the last record read that locates it (a later record for the same block replaces an earlier one; records after an uncaught error are not read); blocks no such record wrote keep their entries |
| BlockHandler.StepWrites | src/main/java/net/knarcraft/launchpad/launchpad/LaunchpadBlockHandler.java:136-144 | one record puts the launchpad built from its velocities (−1 when missing) and direction at its block, unless that block is air, and changes nothing else |
| BlockHandler.CompletedLoadCovers | src/main/java/net/knarcraft/launchpad/launchpad/LaunchpadBlockHandler.java:47-53 | a load that completes contains every non-air block located by some record |
| BlockHandler.LoadAll | src/main/java/net/knarcraft/launchpad/launchpad/LaunchpadBlockHandler.java:37-54 | the map is replaced: a block is registered afterwards iff some record read before the first uncaught error locates it and it is not air, and it holds the launchpad built from the last such record; a completed load holds every such block; a missing section leaves it empty |
| BlockHandler.LoadConfiguration | src/main/java/net/knarcraft/launchpad/config/LaunchpadConfiguration.java:60-79 | `load` adopts the configuration and, only when the "launchpad" section exists, reloads the registry from the data file: the reload outcome is exactly that of LoadAll |
| BlockHandler.SaveLoadRoundTrip | src/main/java/net/knarcraft/launchpad/launchpad/LaunchpadBlockHandler.java:91-145 | reading a saved record restores the launchpad, except that an unset (−1) velocity comes back as 0 |
| BlockHandler.ReloadPinsUnsetVelocityToZero | src/main/java/net/knarcraft/launchpad/launchpad/LaunchpadBlockHandler.java:136-144 | a launchpad that followed the configured default reads 0 after a save and reload |
| Actions.FromCommandName | src/main/java/net/knarcraft/launchpad/launchpad/ModificationAction.java:115-122 | the lookup returns an action whose name equals the input ignoring case, or none when no action's name does |
| Actions.CommandNamesDistinct | src/main/java/net/knarcraft/launchpad/launchpad/ModificationAction.java:15-45 | no two actions share a command name, even ignoring case |
| Actions.FromCommandNameExact | src/main/java/net/knarcraft/launchpad/launchpad/ModificationAction.java:115-122 | the lookup returns a given action iff the input is its name up to case |
| Actions.NullIsAlwaysValid | src/main/java/net/knarcraft/launchpad/launchpad/ModificationAction.java:87-89 | "null" in any case is a valid argument for every action |
| Actions.VelocityArgument | src/main/java/net/knarcraft/launchpad/launchpad/ModificationAction.java:90-96 | for the velocity actions, any other token is valid iff it parses to a number ≥ 0 |
| Actions.FaceTokenIsValid | src/main/java/net/knarcraft/launchpad/launchpad/ModificationAction.java:97-103 | a direction token is valid whenever its upper-cased form names a block face |
| Actions.DirectionArgument | src/main/java/net/knarcraft/launchpad/launchpad/ModificationAction.java:97-103 | a direction token other than "null" is valid iff its upper-cased form names a block face |
| Actions.IsValidArgument | src/main/java/net/knarcraft/launchpad/launchpad/ModificationAction.java:86-107 | "null" is valid for every action; ADD, REMOVE and ABORT accept nothing else; a valid velocity token parses to a number ≥ 0 |
| Actions.VerticalDirectionIsValid | src/main/java/net/knarcraft/launchpad/launchpad/ModificationAction.java:97-103 | "up" and "down" in any case pass validation, although their faces have a vertical offset |
| Actions.ArgumentlessActionsRejectValues | src/main/java/net/knarcraft/launchpad/launchpad/ModificationAction.java:104-106 | for ADD, REMOVE and ABORT a token is valid iff it is "null" |
| Requests.Lookup | src/main/java/net/knarcraft/launchpad/launchpad/ModificationRequestHandler.java:30 | a player's set is found iff the player has one |
| Requests.AddRequest | src/main/java/net/knarcraft/launchpad/launchpad/ModificationRequestHandler.java:29-37 | the player's set afterwards is the previously pending requests plus the new one; other players are unchanged |
| Requests.GetRequests | src/main/java/net/knarcraft/launchpad/launchpad/ModificationRequestHandler.java:44-46 | the drain returns the player's set, or none, and removes it; other players are unchanged |
| Requests.AddPendingRequest | src/main/java/net/knarcraft/launchpad/launchpad/ModificationRequestHandler.java:36 | adding a request already pending leaves the store unchanged |
| Requests.DrainTwice | src/main/java/net/knarcraft/launchpad/launchpad/ModificationRequestHandler.java:45 | a second drain returns nothing and leaves the store as the first left it |
| Requests.DrainAfterAdd | src/main/java/net/knarcraft/launchpad/launchpad/ModificationRequestHandler.java:29-46 | draining after adding returns everything that was pending plus the new request |
| Requests.AddPreservesWellFormed | src/main/java/net/knarcraft/launchpad/launchpad/ModificationRequestHandler.java:29-37 | adding a storable request keeps every pending set non-empty and storable |
| Requests.DrainPreservesWellFormed | src/main/java/net/knarcraft/launchpad/launchpad/ModificationRequestHandler.java:44-46 | draining keeps the store well-formed |
| Command.NullArgument | src/main/java/net/knarcraft/launchpad/command/LaunchpadCommand.java:89-91 | a token becomes null iff it is "null" ignoring case; every other token is kept unchanged |
| Command.ValidFrom | src/main/java/net/knarcraft/launchpad/command/LaunchpadCommand.java:75-79 | the loop accepts iff every argument in the range is valid for the action |
| Command.HasValidArguments | src/main/java/net/knarcraft/launchpad/command/LaunchpadCommand.java:74-81 | true iff each of the action's needed arguments is valid |
| Command.File | src/main/java/net/knarcraft/launchpad/command/LaunchpadCommand.java:44-61 | ADD and REMOVE add one null-valued request; single-value actions add one request with the null-mapped argument; VELOCITIES adds a horizontal and a vertical request; ABORT drains the set; other players are unchanged |
| Command.OnCommand | src/main/java/net/knarcraft/launchpad/command/LaunchpadCommand.java:22-65 | the result is true iff a player sent a known action with enough valid arguments; on false the store is unchanged; other players are never touched |
| Command.FiledRequestIsStorable | src/main/java/net/knarcraft/launchpad/command/LaunchpadCommand.java:45-60 | every filed request carries a validated value or none, and never the action VELOCITIES or ABORT |
| Command.CommandPreservesWellFormed | src/main/java/net/knarcraft/launchpad/command/LaunchpadCommand.java:44-61 | the command keeps the request store well-formed |
| Command.ExtraArgumentsIgnored | src/main/java/net/knarcraft/launchpad/command/LaunchpadCommand.java:39-41 | trailing arguments beyond the needed ones change neither the result nor the store |
| TabCompleteHelper.FilterMatchingContains | src/main/java/net/knarcraft/launchpad/util/TabCompleteHelper.java:24-32 | a value is returned iff it is among the values and contains the typed text ignoring case; each matching value is kept as many times as it occurs, and nothing else; never longer than the input |
| TabCompleteHelper.FilterIsSubsequence | src/main/java/net/knarcraft/launchpad/util/TabCompleteHelper.java:24-32 | the result keeps the original order: it is a subsequence of the values |
| TabCompleteHelper.FilterEmptyKeepsAll | src/main/java/net/knarcraft/launchpad/util/TabCompleteHelper.java:27 | empty typed text returns every value |
| TabCompleteHelper.FilterIdempotent | src/main/java/net/knarcraft/launchpad/util/TabCompleteHelper.java:24-32 | filtering the result again with the same text gives the same list |
| TabCompleter.ModificationActions | src/main/java/net/knarcraft/launchpad/command/LaunchpadTabCompleter.java:101-109 | one command name per action, in declaration order |
| TabCompleter.PlaneFaceNames | src/main/java/net/knarcraft/launchpad/command/LaunchpadTabCompleter.java:85-91 | a name is listed iff some given face passes the plane test, is not SELF and has that name |
| TabCompleter.BlockFacesAreLevelFaces | src/main/java/net/knarcraft/launchpad/command/LaunchpadTabCompleter.java:82-94 | the direction suggestions are exactly the names of faces without a vertical offset, SELF excluded |
| TabCompleter.TabCompletions | src/main/java/net/knarcraft/launchpad/command/LaunchpadTabCompleter.java:52-58 | FIXED_DIRECTION gets the face list, the velocity actions the number list, and the others nothing |
| TabCompleter.ActionSuggestions | src/main/java/net/knarcraft/launchpad/command/LaunchpadTabCompleter.java:28-30 | a suggestion is a command name containing the typed text ignoring case, and every such name is suggested |
| TabCompleter.ValueSuggestions | src/main/java/net/knarcraft/launchpad/command/LaunchpadTabCompleter.java:37-41 | the action's completions that contain the typed text, and all of them |
| TabCompleter.OnTabComplete | src/main/java/net/knarcraft/launchpad/command/LaunchpadTabCompleter.java:26-44 | one argument completes the action name; an unknown action or too many arguments give nothing; otherwise the last argument is completed from the action's list |
| TabCompleter.ActionNameSuggestions | src/main/java/net/knarcraft/launchpad/command/LaunchpadTabCompleter.java:28-30 | with one argument, x is suggested iff x is a command name containing the typed text ignoring case |
| TabCompleter.ArgumentlessActionsSuggestNothing | src/main/java/net/knarcraft/launchpad/command/LaunchpadTabCompleter.java:33-36 | ADD, REMOVE and ABORT never get value suggestions |
| TabCompleter.DirectionSuggestions | src/main/java/net/knarcraft/launchpad/command/LaunchpadTabCompleter.java:37-38 | a direction suggestion is a level face other than SELF whose name contains the typed text, and every such face is suggested |
| TabCompleter.SecondVelocitySuggestions | src/main/java/net/knarcraft/launchpad/command/LaunchpadTabCompleter.java:39-40 | the second velocity of VELOCITIES is completed from 0.1, 0.5, 1, 1.5, 2 |
| ModifyListener.Modify | src/main/java/net/knarcraft/launchpad/listener/LaunchpadModifyListener.java:79-107 | each request changes only the property it names; a null velocity stores 0; a null direction clears it; a vertical face is ignored; ADD and REMOVE change nothing |
| ModifyListener.Target | src/main/java/net/knarcraft/launchpad/listener/LaunchpadModifyListener.java:67-77 | the request works on the registered launchpad, or on a fresh one for an unregistered block |
| ModifyListener.HandleRequest | src/main/java/net/knarcraft/launchpad/listener/LaunchpadModifyListener.java:66-118 | it succeeds iff the block is registered or its material is whitelisted; failure changes nothing; REMOVE unregisters a registered block; any other success registers the changed launchpad; one save per success; other blocks are unchanged |
| ModifyListener.RemoveCreatesLaunchpad | src/main/java/net/knarcraft/launchpad/listener/LaunchpadModifyListener.java:80-85 | REMOVE on an unregistered, whitelisted block registers a fresh launchpad |
| ModifyListener.NullVelocityStoresZero | src/main/java/net/knarcraft/launchpad/listener/LaunchpadModifyListener.java:86-99 | a null velocity request stores 0 |
| ModifyListener.VerticalDirectionIgnored | src/main/java/net/knarcraft/launchpad/listener/LaunchpadModifyListener.java:100-106 | a direction request for UP or DOWN succeeds but leaves the fixed direction as it was |
| ModifyListener.ApplyBatch | src/main/java/net/knarcraft/launchpad/listener/LaunchpadModifyListener.java:39-47 | the failed requests are among those applied; only the clicked block's entry changes, and its final entry is the left fold of the requests over its starting entry: a request fails on an absent, non-whitelisted entry, REMOVE deletes, anything else registers the modified launchpad |
| ModifyListener.EntryAfterAllWithoutRemove | src/main/java/net/knarcraft/launchpad/listener/LaunchpadModifyListener.java:39-47 | without REMOVE, a registered entry or a whitelisted block ends as the starting launchpad with every request applied in order |
| ModifyListener.BatchWithoutRemoveModifies | src/main/java/net/knarcraft/launchpad/listener/LaunchpadModifyListener.java:39-47 | a batch without REMOVE on a registered or whitelisted block registers the target launchpad with every request applied in order |
| ModifyListener.BatchRequeuesFailed | src/main/java/net/knarcraft/launchpad/listener/LaunchpadModifyListener.java:39-47 | the player's pending set gains exactly the failed requests; other players are unchanged |
| ModifyListener.WhitelistedBatchSucceeds | src/main/java/net/knarcraft/launchpad/listener/LaunchpadModifyListener.java:67-77 | on a whitelisted material no request fails, in any order |
| ModifyListener.RejectedBatch | src/main/java/net/knarcraft/launchpad/listener/LaunchpadModifyListener.java:67-74 | on an unregistered block that is not whitelisted every request fails and the registry is untouched |
| ModifyListener.RegisteredBatchWithoutRemove | src/main/java/net/knarcraft/launchpad/listener/LaunchpadModifyListener.java:66-118 | on a registered block, a batch without REMOVE succeeds and keeps the block registered |
| ModifyListener.BatchOrderMatters | src/main/java/net/knarcraft/launchpad/listener/LaunchpadModifyListener.java:39-47 | the set's iteration order changes the outcome: REMOVE then a velocity change re-queues the change on a block that is not whitelisted; the other order applies both |
| ModifyListener.BatchPreservesWellFormedStore | src/main/java/net/knarcraft/launchpad/listener/LaunchpadModifyListener.java:39-47 | re-queueing storable requests keeps the store well-formed |
| ModifyListener.OnLaunchpadClick | src/main/java/net/knarcraft/launchpad/listener/LaunchpadModifyListener.java:27-57 | only a right-click on a block acts; no pending set changes nothing; an empty set is drained silently; otherwise the registry is the batch's result, the pending set afterwards is exactly the failed requests, and the success message is sent iff none failed; the item use and block interaction are denied exactly when that message is sent |
| ModifyListener.WhitelistedClick | src/main/java/net/knarcraft/launchpad/listener/LaunchpadModifyListener.java:49-53 | on a whitelisted material the success message is sent and nothing stays pending |
| ModifyListener.RejectedClick | src/main/java/net/knarcraft/launchpad/listener/LaunchpadModifyListener.java:54-56 | on an unregistered block that is not whitelisted, registry and store end as they began and the not-whitelisted message is sent |
| ModifyListener.RejectedBatchRestores | src/main/java/net/knarcraft/launchpad/listener/LaunchpadModifyListener.java:39-47 | on an unregistered block that is not whitelisted the batch re-queues every drained request, so the store ends as it began, and at least one request fails |
| ModifyListener.ClickPreservesWellFormedStore | src/main/java/net/knarcraft/launchpad/listener/LaunchpadModifyListener.java:27-57 | the click keeps the request store well-formed |
| UseListener.BlockAt | src/main/java/net/knarcraft/launchpad/listener/LaunchpadUseListener.java:54 | the block containing a position: the coordinates are floored |
| UseListener.FromLaunchpad | src/main/java/net/knarcraft/launchpad/listener/LaunchpadUseListener.java:103-109 | the fixed direction if set, else the facing; the launchpad's own velocities, both ≥ 0 |
| UseListener.FromMaterial | src/main/java/net/knarcraft/launchpad/listener/LaunchpadUseListener.java:91-95 | the facing and the material's configured defaults |
| UseListener.Decide | src/main/java/net/knarcraft/launchpad/listener/LaunchpadUseListener.java:69-82 | a registered launchpad launches with its own properties whatever its material; an unregistered block launches iff its material is a launchpad material |
| UseListener.OnPressurePlateUse | src/main/java/net/knarcraft/launchpad/listener/LaunchpadUseListener.java:27-44 | only a physical interaction with a block launches, and then as decided for the clicked block |
| UseListener.Footing | src/main/java/net/knarcraft/launchpad/listener/LaunchpadUseListener.java:54-61 | the destination block, or for air the block 0.2 below, and nothing when that one is passable |
| UseListener.OnMove | src/main/java/net/knarcraft/launchpad/listener/LaunchpadUseListener.java:47-83 | no launch for a missing destination, an unchanged x, y, z, no footing or a pressure plate; otherwise the player is launched iff the footing block is decided to launch, with the decided velocity |
| UseListener.IsSameLocation | src/main/java/net/knarcraft/launchpad/listener/LaunchpadUseListener.java:135-137 | two positions are the same iff x, y and z agree, whatever the world; in one world they then lie in the same block |
| UseListener.LaunchVelocity | src/main/java/net/knarcraft/launchpad/listener/LaunchpadUseListener.java:119-125 | along a level face the vertical speed is the vertical velocity, and with a non-zero horizontal velocity only along a level face; a zero horizontal velocity launches straight up |
| UseListener.FixedDirectionIgnoresFacing | src/main/java/net/knarcraft/launchpad/listener/LaunchpadUseListener.java:103-108 | a launchpad with a fixed direction launches the same way whatever the player faces |
| UseListener.LevelLaunchVertical | src/main/java/net/knarcraft/launchpad/listener/LaunchpadUseListener.java:119-125 | along a level face the vertical speed is exactly the vertical velocity |
| UseListener.RegisteredLaunchIsLevel | src/main/java/net/knarcraft/launchpad/listener/LaunchpadUseListener.java:103-109 | a registered launchpad, facing level, launches with vertical speed equal to its vertical velocity |
| UseListener.UnitLevelDirection | src/main/java/net/knarcraft/launchpad/listener/LaunchpadUseListener.java:121 | the direction of a level face other than SELF has unit length |
| UseListener.HorizontalSpeed | src/main/java/net/knarcraft/launchpad/listener/LaunchpadUseListener.java:119-125 | along a level face other than SELF the horizontal speed is the horizontal velocity |
| UseListener.EastLaunchpadScenario | src/main/java/net/knarcraft/launchpad/listener/LaunchpadUseListener.java:27-37 | a launchpad fixed to EAST with velocities 2 and 0.5 launches at (2, 0.5, 0) |
| BreakListener.Affected | src/main/java/net/knarcraft/launchpad/listener/LaunchpadBreakListener.java:24-64 | break, burn and decay affect their block; piston and explosion events affect their whole block list; an entity change affects its block iff it turns into air |
| BreakListener.UnregisterAll | src/main/java/net/knarcraft/launchpad/listener/LaunchpadBreakListener.java:71-84 | exactly the listed blocks are removed; others are unchanged |
| BreakListener.OnBlockEvent | src/main/java/net/knarcraft/launchpad/listener/LaunchpadBreakListener.java:24-64 | a block stays registered iff it was registered and the event does not affect it; unaffected blocks keep their entries |
| BreakListener.ChangeToNonAirKeepsLaunchpad | src/main/java/net/knarcraft/launchpad/listener/LaunchpadBreakListener.java:59-64 | an entity change to a non-air material changes nothing |
| BreakListener.SingleBlockEventRemoves | src/main/java/net/knarcraft/launchpad/listener/LaunchpadBreakListener.java:24-32 | break, burn and leaf decay unregister exactly the event's block |
| BreakListener.UnregisterAllIdempotent | src/main/java/net/knarcraft/launchpad/listener/LaunchpadBreakListener.java:71-75 | unregistering the same list twice leaves the same map as once |
| ParticleConfig.ModeNamed | src/main/java/net/knarcraft/launchpad/config/LaunchpadParticleConfig.java:45 | the mode lookup finds a mode with exactly that name, or none when no mode has it |
| ParticleConfig.ModeNamedName | src/main/java/net/knarcraft/launchpad/config/ParticleMode.java:6-33 | every mode is found by its own name |
| ParticleConfig.ClampDensity | src/main/java/net/knarcraft/launchpad/config/LaunchpadParticleConfig.java:52-58 | ≤ 0 becomes 0.1, above 360 becomes 360, anything else is kept; the result is in (0, 360] |
| ParticleConfig.ClampDensityIdempotent | src/main/java/net/knarcraft/launchpad/config/LaunchpadParticleConfig.java:52-58 | clamping twice is clamping once |
| ParticleConfig.FromSection | src/main/java/net/knarcraft/launchpad/config/LaunchpadParticleConfig.java:28-59 | a known type and mode are kept; a missing or unknown type gives ASH and an unknown mode SINGLE; each missing key takes its default (amount 30, offsets 0.5/1/0.5, heightOffset 0.5, extra 0, spawn delay 20, density 0.1) and a present one its value; the density is then clamped |
| ParticleConfig.EmptySectionDefaults | src/main/java/net/knarcraft/launchpad/config/LaunchpadParticleConfig.java:36-42 | an empty section yields every default: ASH, SINGLE, 30, 0.1, heightOffset 0.5, 20, offsets 0.5/1/0.5, extra 0 |
| ParticleConfig.LowerCaseModeFallsBack | src/main/java/net/knarcraft/launchpad/config/LaunchpadParticleConfig.java:43-49 | the mode name is case-sensitive: "circle" falls back to SINGLE |
| Host.FaceNamed | src/main/java/net/knarcraft/launchpad/launchpad/ModificationAction.java:99 | the face lookup finds the face with exactly that name, or none |
| Host.FaceNamedName | src/main/java/net/knarcraft/launchpad/launchpad/LaunchpadBlockHandler.java:101-102 | a saved face name reads back as that face |
| Host.InXZPlaneIffLevel | src/main/java/net/knarcraft/launchpad/launchpad/LaunchpadBlock.java:117-118 | the plane test (dot with WEST × NORTH is zero) accepts exactly the faces without a vertical offset |
| Strings.SplitJoin | src/main/java/net/knarcraft/launchpad/launchpad/LaunchpadBlockHandler.java:121 | splitting on "," undoes joining comma-free parts whose last part is not empty |
| Strings.IntToStringRoundTrip | src/main/java/net/knarcraft/launchpad/launchpad/LaunchpadBlockHandler.java:95-96 | the decimal text of every integer reads back as that integer |

## Left out

- YAML file I/O. A save is counted, not written. The data file and the configuration file arrive already read, as records and sections.
- The material-list syntax of `MaterialHelper` (tags, "+"). Material lists arrive as resolved materials.
- Particle drawing and its scheduling: `ParticleSpawner`, `ParticleTrailSpawner`, and the particle part of `LaunchpadConfiguration.load`. These are floating-point rendering, randomness and timers.
- Plugin start-up, command registration, `ReloadCommand`, and the `Message`/`LaunchpadMessage` texts. Chat output is reduced to which message is sent.
- Event priorities and `ignoreCancelled`. Handlers are modelled as running on every event they receive.
- Server primitives are parameters:
  - `Double.parseDouble`, UUID parsing and world lookup;
  - the material at a block, and whether a material is air, a block or a pressure plate;
  - whether a block is passable;
  - the particle type registry;
  - the player's facing.
- Java's 32-bit `int` and IEEE doubles. Coordinates and counts are unbounded integers. Velocities are exact reals, so NaN and infinities do not occur.
- Case folding covers the ASCII letters only. Other characters are compared as they are.
- `saveAll` calls `getHorizontalVelocityRaw`/`getVerticalVelocityRaw`, which `LaunchpadBlock.java` does not define. The model writes the stored fields.
- HandleRequest: requires the request's value to parse, so the exception a malformed stored value would raise is not modelled. Requests from the command always parse; CommandPreservesWellFormed and ClickPreservesWellFormedStore show that.
- OnLaunchpadClick: requires the iteration order to enumerate the drained set. The HashSet order is left open, so every property holds for every order.
- OnTabComplete: requires at least one argument. The server always passes the word being typed, and the code reads `arguments[0]` without a check.
- UseListener.HorizontalSpeed: assumes exact reciprocal square roots, (1/√2)² = 1/2 and (1/√5)² = 1/5. Doubles only approximate them.

=== FILE: actions.dfy ===
/**
 * The modification actions a player can request (ModificationAction.java) and
 * the request record itself (ModificationRequest.java).
 */
module Actions {
  import opened Options
  import opened Strings
  import opened Host

  datatype Action =
    | Remove
    | Add
    | VerticalVelocity
    | HorizontalVelocity
    | FixedDirection
    | Abort
    | Velocities
  {
    /** The name used for the action on the command line. */
    function CommandName(): string {
      match this
      case Remove => "remove"
      case Add => "add"
      case VerticalVelocity => "verticalVelocity"
      case HorizontalVelocity => "horizontalVelocity"
      case FixedDirection => "fixedDirection"
      case Abort => "abort"
      case Velocities => "velocities"
    }

    /** How many value arguments must follow the action name. */
    function NeededArguments(): (n: nat)
      ensures n <= 2
    {
      match this
      case Remove | Add | Abort => 0
      case VerticalVelocity | HorizontalVelocity | FixedDirection => 1
      case Velocities => 2
    }

    predicate IsVelocityAction() {
      this == HorizontalVelocity || this == VerticalVelocity || this == Velocities
    }

    /**
     * `isValidArgument`: "null" in any case is valid for every action; a
     * velocity needs a number ≥ 0; a direction needs the upper-cased token to
     * name a block face (any face, UP and DOWN included); nothing else is valid.
     */
    predicate IsValidArgument(argument: string, s: Server): (ok: bool)
      ensures EqualsIgnoreCase(argument, "null") ==> ok
      ensures ok && (this == Add || this == Remove || this == Abort) ==> EqualsIgnoreCase(argument, "null")
      ensures ok && IsVelocityAction() && !EqualsIgnoreCase(argument, "null") ==>
        s.parseDouble(argument).Some? && s.parseDouble(argument).value >= 0.0
    {
      if EqualsIgnoreCase(argument, "null") then true
      else if IsVelocityAction() then
        s.parseDouble(argument).Some? && s.parseDouble(argument).value >= 0.0
      else if this == FixedDirection then FaceNamed(Upper(argument)).Some?
      else false
    }
  }

  /** `ModificationAction.values()`, in declaration order. */
  const AllActions: seq<Action> := [Remove, Add, VerticalVelocity, HorizontalVelocity, FixedDirection, Abort, Velocities]

  lemma AllActionsListsEveryAction(a: Action)
    ensures a in AllActions
  {
  }

  function FindAction(actions: seq<Action>, name: string): (r: Option<Action>)
    ensures r.Some? ==> r.value in actions && EqualsIgnoreCase(r.value.CommandName(), name)
    ensures r.None? ==> forall a :: a in actions ==> !EqualsIgnoreCase(a.CommandName(), name)
    decreases |actions|
  {
    if |actions| == 0 then None
    else if EqualsIgnoreCase(actions[0].CommandName(), name) then Some(actions[0])
    else FindAction(actions[1..], name)
  }

  /** `getFromCommandName`: the first action whose name equals the input ignoring case; None is null. */
  function FromCommandName(name: string): (r: Option<Action>)
    ensures r.Some? ==> EqualsIgnoreCase(r.value.CommandName(), name)
    ensures r.None? ==> forall a: Action :: !EqualsIgnoreCase(a.CommandName(), name)
  {
    var r := FindAction(AllActions, name);
    if r.None? then
      forall a: Action ensures !EqualsIgnoreCase(a.CommandName(), name) {
        AllActionsListsEveryAction(a);
      }
      r
    else r
  }

  /** No two actions share a command name, even ignoring case (their lengths already differ). */
  lemma CommandNamesDistinct(a: Action, b: Action)
    requires EqualsIgnoreCase(a.CommandName(), b.CommandName())
    ensures a == b
  {
    EqualsIgnoreCaseSameLength(a.CommandName(), b.CommandName());
  }

  /** So the lookup is exact: it returns `a` iff the input is `a`'s name up to case. */
  lemma FromCommandNameExact(a: Action, name: string)
    ensures FromCommandName(name) == Some(a) <==> EqualsIgnoreCase(a.CommandName(), name)
  {
    var r := FromCommandName(name);
    if EqualsIgnoreCase(a.CommandName(), name) {
      assert r.Some?;
      CommandNamesDistinct(a, r.value);
    }
  }

  /** "null" in any case is a valid argument for every action. */
  lemma NullIsAlwaysValid(a: Action, token: string, s: Server)
    requires EqualsIgnoreCase(token, "null")
    ensures a.IsValidArgument(token, s)
  {
  }

  /** Only "null" is valid for ADD, REMOVE and ABORT. */
  lemma ArgumentlessActionsRejectValues(a: Action, token: string, s: Server)
    requires a == Add || a == Remove || a == Abort
    ensures a.IsValidArgument(token, s) <==> EqualsIgnoreCase(token, "null")
  {
  }

  /** A velocity token other than "null" is valid iff it parses to a number ≥ 0. */
  lemma VelocityArgument(a: Action, token: string, s: Server)
    requires a.IsVelocityAction() && !EqualsIgnoreCase(token, "null")
    ensures a.IsValidArgument(token, s) <==> s.parseDouble(token).Some? && s.parseDouble(token).value >= 0.0
  {
  }

  /** A direction token is valid whenever its upper-cased form names a face. */
  lemma FaceTokenIsValid(token: string, s: Server)
    ensures FaceNamed(Upper(token)).Some? ==> FixedDirection.IsValidArgument(token, s)
  {
  }

  /** A direction token other than "null" is valid iff its upper-cased form names a face. */
  lemma DirectionArgument(token: string, s: Server)
    requires !EqualsIgnoreCase(token, "null")
    ensures FixedDirection.IsValidArgument(token, s) <==> FaceNamed(Upper(token)).Some?
  {
  }

  /**
   * Direction validation accepts the vertical faces: "up" or "down" in any
   * case passes, although the setter will ignore the face it names.
   */
  lemma VerticalDirectionIsValid(token: string, s: Server)
    requires Upper(token) == Up.Name() || Upper(token) == Down.Name()
    ensures FixedDirection.IsValidArgument(token, s)
    ensures FaceNamed(Upper(token)).Some? && FaceNamed(Upper(token)).value.ModY() != 0
  {
    if Upper(token) == Up.Name() {
      FaceNamedName(Up);
    } else {
      FaceNamedName(Down);
    }
    FaceTokenIsValid(token, s);
  }

  /** A pending modification: an action and an optional value token (None is null). */
  datatype Request = Request(action: Action, value: Option<string>)

  /** What applying a request needs of its value: numbers parse and face names resolve. */
  predicate ValueParses(q: Request, s: Server) {
    q.value.Some? ==>
      && (q.action == HorizontalVelocity || q.action == VerticalVelocity ==> s.parseDouble(q.value.value).Some?)
      && (q.action == FixedDirection ==> FaceNamed(Upper(q.value.value)).Some?)
  }

  /**
   * The shape of every request the command stores: a single-property action
   * whose value is absent, or a validated token other than "null"; ADD and
   * REMOVE carry no value.
   */
  predicate Storable(q: Request, s: Server) {
    && q.action != Abort && q.action != Velocities
    && ((q.action == Add || q.action == Remove) ==> q.value.None?)
    && (q.value.Some? ==> !EqualsIgnoreCase(q.value.value, "null") && q.action.IsValidArgument(q.value.value, s))
  }

  lemma StorableValueParses(q: Request, s: Server)
    requires Storable(q, s)
    ensures ValueParses(q, s)
  {
  }
}

=== FILE: block_handler.dfy ===
/**
 * The launchpad registry (LaunchpadBlockHandler.java): a map from block to
 * launchpad, written to disk in full after every change, and read back from
 * the "launchpads" section of data.yml.
 *
 * Disk writes are counted in `saves` rather than performed. The data file is
 * given already read: a sequence of (key, fields) records in file order.
 */
module BlockHandler {
  import opened Options
  import opened Strings
  import opened Host
  import opened Launchpads
  import Configuration

  datatype Registry = Registry(pads: map<Block, LaunchpadBlock>, saves: nat)

  /** Every entry is stored under its own block and is a launchpad the plugin can construct. */
  predicate WellFormed(r: Registry) {
    WellFormedPads(r.pads)
  }

  predicate WellFormedPads(pads: map<Block, LaunchpadBlock>) {
    forall b :: b in pads ==> pads[b].block == b && Valid(pads[b])
  }

  /** `getLaunchpadBlock`: None is Java's null. */
  function Get(r: Registry, b: Block): (p: Option<LaunchpadBlock>)
    ensures p.Some? <==> b in r.pads
    ensures p.Some? ==> p.value == r.pads[b]
  {
    if b in r.pads then Some(r.pads[b]) else None
  }

  /** `saveAll`: one full rewrite of the data file. */
  function SaveAll(r: Registry): (r': Registry)
    ensures r'.pads == r.pads && r'.saves == r.saves + 1
  {
    r.(saves := r.saves + 1)
  }

  /** `registerLaunchpadBlock`: stores the launchpad under its block, replacing any earlier entry, then saves. */
  function Register(r: Registry, p: LaunchpadBlock): (r': Registry)
    ensures Get(r', p.block) == Some(p)
    ensures forall b :: b != p.block ==> Get(r', b) == Get(r, b)
    ensures r'.pads.Keys == r.pads.Keys + {p.block}
    ensures r'.saves == r.saves + 1
    ensures WellFormed(r) && Valid(p) ==> WellFormed(r')
  {
    SaveAll(r.(pads := r.pads[p.block := p]))
  }

  /** `unregisterLaunchpadBlock`: removes and saves when present; otherwise nothing happens, not even a save. */
  function Unregister(r: Registry, b: Block): (r': Registry)
    ensures Get(r', b) == None
    ensures forall c :: c != b ==> Get(r', c) == Get(r, c)
    ensures r'.pads.Keys == r.pads.Keys - {b}
    ensures b in r.pads ==> r'.saves == r.saves + 1
    ensures b !in r.pads ==> r' == r
    ensures WellFormed(r) ==> WellFormed(r')
  {
    if b in r.pads then SaveAll(r.(pads := r.pads - {b})) else r
  }

  /** Unregistering twice is the same as unregistering once. */
  lemma UnregisterIdempotent(r: Registry, b: Block)
    ensures Unregister(Unregister(r, b), b) == Unregister(r, b)
  {
  }

  /** A later registration for the same block replaces the earlier one. */
  lemma RegisterOverwrites(r: Registry, p: LaunchpadBlock, q: LaunchpadBlock)
    requires p.block == q.block
    ensures Register(Register(r, p), q).pads == Register(r, q).pads
  {
  }

  // ---------------------------------------------------------------------------
  // Storage format

  /** The fields stored under a launchpad's key; None is a missing (or non-numeric) value. */
  datatype StoredLaunchpad = StoredLaunchpad(
    horizontalVelocity: Option<real>,
    verticalVelocity: Option<real>,
    fixedDirection: Option<string>)

  /** `world-uuid,x,y,z`, as `saveAll` writes it. */
  function StorageKey(b: Block): (k: string)
    ensures ',' !in b.world ==> Split(k) == [b.world, IntToString(b.x), IntToString(b.y), IntToString(b.z)]
  {
    var parts := [b.world, IntToString(b.x), IntToString(b.y), IntToString(b.z)];
    if ',' in b.world then Join(parts)
    else
      SplitJoin(parts);
      Join(parts)
  }

  /** What `saveAll` writes for one launchpad: the raw velocities and the direction's name. */
  function Stored(p: LaunchpadBlock): StoredLaunchpad {
    StoredLaunchpad(
      Some(p.horizontal),
      Some(p.vertical),
      match p.fixedDirection
      case None => None
      case Some(f) => Some(f.Name()))
  }

  /** Where a stored key leads when `loadLaunchpad` reads it. */
  datatype KeyOutcome =
    | Located(block: Block)
      // a coordinate is not a number, or a UUID group is not hexadecimal: a
      // NumberFormatException, rethrown as InvalidConfigurationException and caught by loadAll
    | InvalidLocation
      // too few parts, a UUID of the wrong shape or no such world: an exception loadAll does not catch
    | Crash

  /**
   * `key.split(",")`, then world lookup and `Double.parseDouble` of parts 1-3,
   * in Java's evaluation order, then the block at the floored coordinates.
   */
  function LocateKey(key: string, s: Server): (o: KeyOutcome)
    ensures o.Located? ==>
      && |Split(key)| >= 4 && s.parseUuid(Split(key)[0]) == Uuid
      && s.worldOf(Split(key)[0]) == Some(o.block.world)
      && s.parseDouble(Split(key)[1]).Some? && o.block.x == s.parseDouble(Split(key)[1]).value.Floor
      && s.parseDouble(Split(key)[2]).Some? && o.block.y == s.parseDouble(Split(key)[2]).value.Floor
      && s.parseDouble(Split(key)[3]).Some? && o.block.z == s.parseDouble(Split(key)[3]).value.Floor
    ensures o.InvalidLocation? ==>
      |Split(key)| >= 1 && s.parseUuid(Split(key)[0]) != UuidMalformed
    ensures |Split(key)| >= 1 && s.parseUuid(Split(key)[0]) == UuidMalformed ==> o == Crash
    ensures |Split(key)| >= 1 && s.parseUuid(Split(key)[0]) == UuidNumberFormat ==> o == InvalidLocation
    ensures |Split(key)| >= 4 && s.parseUuid(Split(key)[0]) == Uuid && s.worldOf(Split(key)[0]).None? ==> !o.Located?
  {
    var parts := Split(key);
    if |parts| < 1 then Crash
    else match s.parseUuid(parts[0])
    case UuidMalformed => Crash
    case UuidNumberFormat => InvalidLocation
    case Uuid =>
      if |parts| < 2 then Crash
      else match s.parseDouble(parts[1])
        case None => InvalidLocation
        case Some(x) =>
          if |parts| < 3 then Crash
          else match s.parseDouble(parts[2])
            case None => InvalidLocation
            case Some(y) =>
              if |parts| < 4 then Crash
              else match s.parseDouble(parts[3])
                case None => InvalidLocation
                case Some(z) =>
                  match s.worldOf(parts[0])
                  case None => Crash
                  case Some(w) => Located(Block(w, x.Floor, y.Floor, z.Floor))
  }

  /** The host reads every integer text as that integer (true of `Double.parseDouble`). */
  ghost predicate ReadsIntegers(s: Server) {
    forall t :: IsIntegerText(t) ==> s.parseDouble(t) == Some(ParseInt(t) as real)
  }

  /** A world identifier that can appear in a key: no comma, a valid UUID, naming a loaded world. */
  predicate KnownWorld(w: string, s: Server) {
    ',' !in w && s.parseUuid(w) == Uuid && s.worldOf(w) == Some(w)
  }

  /** Reading a key back finds the block it was written for. */
  lemma LocateStorageKey(b: Block, s: Server)
    requires ReadsIntegers(s) && KnownWorld(b.world, s)
    ensures LocateKey(StorageKey(b), s) == Located(b)
  {
    var parts := [b.world, IntToString(b.x), IntToString(b.y), IntToString(b.z)];
    SplitJoin(parts);
    IntToStringRoundTrip(b.x);
    IntToStringRoundTrip(b.y);
    IntToStringRoundTrip(b.z);
  }

  /** Distinct blocks in known worlds get distinct keys. */
  lemma StorageKeyInjective(a: Block, b: Block, s: Server)
    requires ReadsIntegers(s) && KnownWorld(a.world, s) && KnownWorld(b.world, s)
    requires StorageKey(a) == StorageKey(b)
    ensures a == b
  {
    LocateStorageKey(a, s);
    LocateStorageKey(b, s);
  }

  /** What one stored record does to the map being loaded. */
  datatype LoadStep = Loaded(pads: map<Block, LaunchpadBlock>) | Invalid | Aborted

  /**
   * `loadLaunchpad`: an air block is skipped; missing velocities read as −1
   * and go through the four-argument constructor; an unknown direction name
   * makes `BlockFace.valueOf` throw, which aborts the load.
   */
  function LoadLaunchpad(pads: map<Block, LaunchpadBlock>, key: string, data: StoredLaunchpad, s: Server)
    : (r: LoadStep)
    ensures r.Invalid? <==> LocateKey(key, s).InvalidLocation?
    ensures r.Loaded? ==> LocateKey(key, s).Located?
    ensures r.Loaded? && s.isAir(s.materialAt(LocateKey(key, s).block)) ==> r.pads == pads
    ensures r.Loaded? && !s.isAir(s.materialAt(LocateKey(key, s).block)) ==>
      var b := LocateKey(key, s).block;
      && r.pads.Keys == pads.Keys + {b}
      && r.pads[b].block == b && Valid(r.pads[b])
      && forall c :: c in pads && c != b ==> r.pads[c] == pads[c]
    // A missing velocity is stored as −1 (read back as the configured default
    // until the constructor clamps it to 0) and a missing direction as none.
    ensures r.Loaded? && !s.isAir(s.materialAt(LocateKey(key, s).block)) ==>
      var b := LocateKey(key, s).block;
      r.pads[b] == Create(b, data.horizontalVelocity.GetOr(-1.0), data.verticalVelocity.GetOr(-1.0),
                          StoredDirection(data), s)
    // On a located block that is not air, only an unknown direction name aborts.
    ensures LocateKey(key, s).Located? && !s.isAir(s.materialAt(LocateKey(key, s).block)) ==>
      (r.Aborted? <==> data.fixedDirection.Some? && FaceNamed(data.fixedDirection.value).None?)
  {
    match LocateKey(key, s)
    case Crash => Aborted
    case InvalidLocation => Invalid
    case Located(b) =>
      if s.isAir(s.materialAt(b)) then Loaded(pads)
      else
        var direction :=
          match data.fixedDirection
          case None => Some(None)
          case Some(name) => if FaceNamed(name).Some? then Some(FaceNamed(name)) else None;
        if direction.None? then Aborted
        else
          var h := data.horizontalVelocity.GetOr(-1.0);
          var v := data.verticalVelocity.GetOr(-1.0);
          Loaded(pads[b := Create(b, h, v, direction.value, s)])
  }

  /** The launchpad `loadLaunchpad` builds at `b` from a record: missing velocities are −1. */
  function RecordEntry(b: Block, data: StoredLaunchpad, s: Server): LaunchpadBlock {
    Create(b, data.horizontalVelocity.GetOr(-1.0), data.verticalVelocity.GetOr(-1.0), StoredDirection(data), s)
  }

  /**
   * What reading the records in order stores at `b`, if anything: the entry
   * built from the LAST record that locates `b` (a later `put` replaces an
   * earlier one), counting only the records before the first uncaught error.
   * An air block is never stored.
   */
  function Written(records: seq<(string, StoredLaunchpad)>, b: Block, s: Server): Option<LaunchpadBlock>
    decreases |records|
  {
    if |records| == 0 || Crashes(records[0].0, records[0].1, s) then None
    else
      var later := Written(records[1..], b, s);
      if later.Some? then later
      else if LocateKey(records[0].0, s) == Located(b) && !s.isAir(s.materialAt(b)) then Some(RecordEntry(b, records[0].1, s))
      else None
  }

  /** The direction a record names: none when the field is absent. */
  function StoredDirection(data: StoredLaunchpad): Option<Face> {
    if data.fixedDirection.Some? then FaceNamed(data.fixedDirection.value) else None
  }

  /**
   * A key whose UUID part has a non-hexadecimal group is reported like a bad
   * coordinate: logged, and the load goes on.
   */
  lemma NonHexUuidIsLogged(key: string, data: StoredLaunchpad, s: Server)
    requires |Split(key)| >= 1 && s.parseUuid(Split(key)[0]) == UuidNumberFormat
    ensures LocateKey(key, s) == InvalidLocation
    ensures !Crashes(key, data, s)
    ensures InvalidKeys([(key, data)], s) == [key]
  {
  }

  /** Whether a record's exception escapes `loadAll`. */
  predicate Crashes(key: string, data: StoredLaunchpad, s: Server) {
    LoadLaunchpad(map[], key, data, s).Aborted?
  }

  lemma CrashesIndependentOfMap(pads: map<Block, LaunchpadBlock>, key: string, data: StoredLaunchpad, s: Server)
    ensures LoadLaunchpad(pads, key, data, s).Aborted? == Crashes(key, data, s)
    ensures LoadLaunchpad(pads, key, data, s).Invalid? == LoadLaunchpad(map[], key, data, s).Invalid?
  {
  }

  /** The keys `loadAll` reports as unparsable, in file order. */
  function InvalidKeys(records: seq<(string, StoredLaunchpad)>, s: Server): seq<string>
    decreases |records|
  {
    if |records| == 0 then []
    else
      var rest := InvalidKeys(records[1..], s);
      if LocateKey(records[0].0, s).InvalidLocation? then [records[0].0] + rest else rest
  }

  /** The outcome of `loadAll`: the new registry, the logged keys, and whether every record was read. */
  datatype LoadOutcome = LoadOutcome(registry: Registry, logged: seq<string>, completed: bool)

  datatype Progress = Progress(pads: map<Block, LaunchpadBlock>, logged: seq<string>, completed: bool)

  /** The loop of `loadAll` over the records, from the map loaded so far. */
  function LoadRecords(pads: map<Block, LaunchpadBlock>, records: seq<(string, StoredLaunchpad)>, s: Server)
    : (p: Progress)
    ensures WellFormedPads(pads) ==> WellFormedPads(p.pads)
    ensures pads.Keys <= p.pads.Keys
    ensures p.completed <==> forall i :: 0 <= i < |records| ==> !Crashes(records[i].0, records[i].1, s)
    ensures p.completed ==> p.logged == InvalidKeys(records, s)
    decreases |records|
  {
    if |records| == 0 then Progress(pads, [], true)
    else
      var (key, data) := records[0];
      CrashesIndependentOfMap(pads, key, data, s);
      match LoadLaunchpad(pads, key, data, s)
      case Aborted => Progress(pads, [], false)
      case Invalid =>
        var rest := LoadRecords(pads, records[1..], s);
        Progress(rest.pads, [key] + rest.logged, rest.completed)
      case Loaded(next) =>
        assert WellFormedPads(pads) ==> WellFormedPads(next);
        LoadRecords(next, records[1..], s)
  }

  /** The map after the loop holds, for every block, the entry the last record read for it built, else its earlier entry. */
  ghost predicate WrittenOver(pads: map<Block, LaunchpadBlock>, loaded: map<Block, LaunchpadBlock>,
                              records: seq<(string, StoredLaunchpad)>, s: Server) {
    && (forall b :: b in loaded <==> b in pads || Written(records, b, s).Some?)
    && (forall b :: b in loaded ==>
         loaded[b] == (if Written(records, b, s).Some? then Written(records, b, s).value else pads[b]))
  }

  /**
   * The loop stores at each block the launchpad built from the last record
   * read that locates it; blocks no record read wrote keep their entries.
   */
  lemma {:induction false} LoadedValues(pads: map<Block, LaunchpadBlock>, records: seq<(string, StoredLaunchpad)>, s: Server)
    ensures WrittenOver(pads, LoadRecords(pads, records, s).pads, records, s)
    decreases |records|, 1
  {
    if |records| > 0 {
      var (key, data) := records[0];
      CrashesIndependentOfMap(pads, key, data, s);
      var step := LoadLaunchpad(pads, key, data, s);
      if step.Aborted? {
        assert LoadRecords(pads, records, s).pads == pads;
        assert forall b :: Written(records, b, s).None?;
      } else if step.Invalid? {
        InvalidRecordValues(pads, records, s);
      } else {
        LoadedRecordValues(pads, records, s);
      }
    }
  }

  lemma {:induction false} InvalidRecordValues(pads: map<Block, LaunchpadBlock>, records: seq<(string, StoredLaunchpad)>, s: Server)
    requires |records| > 0 && LoadLaunchpad(pads, records[0].0, records[0].1, s).Invalid?
    ensures WrittenOver(pads, LoadRecords(pads, records, s).pads, records, s)
    decreases |records|, 0
  {
    CrashesIndependentOfMap(pads, records[0].0, records[0].1, s);
    assert LoadRecords(pads, records, s).pads == LoadRecords(pads, records[1..], s).pads;
    assert forall b :: Written(records, b, s) == Written(records[1..], b, s);
    LoadedValues(pads, records[1..], s);
  }

  lemma {:induction false} LoadedRecordValues(pads: map<Block, LaunchpadBlock>, records: seq<(string, StoredLaunchpad)>, s: Server)
    requires |records| > 0 && LoadLaunchpad(pads, records[0].0, records[0].1, s).Loaded?
    ensures WrittenOver(pads, LoadRecords(pads, records, s).pads, records, s)
    decreases |records|, 0
  {
    var (key, data) := records[0];
    CrashesIndependentOfMap(pads, key, data, s);
    var next := LoadLaunchpad(pads, key, data, s).pads;
    assert LoadRecords(pads, records, s).pads == LoadRecords(next, records[1..], s).pads;
    LoadedValues(next, records[1..], s);
    StepWrites(pads, key, data, s);
    assert forall b :: Written(records, b, s) ==
             if Written(records[1..], b, s).Some? then Written(records[1..], b, s)
             else if LocateKey(key, s) == Located(b) && !s.isAir(s.materialAt(b)) then Some(RecordEntry(b, data, s))
             else None;
  }

  /** One located record puts its entry at its block, unless the block is air; nothing else changes. */
  lemma StepWrites(pads: map<Block, LaunchpadBlock>, key: string, data: StoredLaunchpad, s: Server)
    requires LoadLaunchpad(pads, key, data, s).Loaded?
    ensures var next := LoadLaunchpad(pads, key, data, s).pads;
      && (forall b :: b in next <==> b in pads || (LocateKey(key, s) == Located(b) && !s.isAir(s.materialAt(b))))
      && (forall b :: b in next ==>
           next[b] == (if LocateKey(key, s) == Located(b) && !s.isAir(s.materialAt(b)) then RecordEntry(b, data, s) else pads[b]))
  {
  }

  /** The outcome of reading each record's key, in order. */
  function KeyOutcomes(records: seq<(string, StoredLaunchpad)>, s: Server): (o: seq<KeyOutcome>)
    ensures |o| == |records|
    ensures forall i :: 0 <= i < |records| ==> o[i] == LocateKey(records[i].0, s)
    decreases |records|
  {
    if |records| == 0 then [] else [LocateKey(records[0].0, s)] + KeyOutcomes(records[1..], s)
  }

  /** Every block in `loaded` but not in `pads` is not air and is located by one of the records. */
  predicate FromRecords(pads: map<Block, LaunchpadBlock>, loaded: map<Block, LaunchpadBlock>, records: seq<(string, StoredLaunchpad)>, s: Server) {
    forall b :: b in loaded && b !in pads ==> !s.isAir(s.materialAt(b)) && Located(b) in KeyOutcomes(records, s)
  }

  /** Every block the loop adds is not air and is the location of one of the records. */
  lemma {:induction false} LoadedFromRecords(pads: map<Block, LaunchpadBlock>, records: seq<(string, StoredLaunchpad)>, s: Server)
    ensures FromRecords(pads, LoadRecords(pads, records, s).pads, records, s)
    decreases |records|, 1
  {
    if |records| > 0 {
      var step := LoadLaunchpad(pads, records[0].0, records[0].1, s);
      if step.Invalid? {
        InvalidRecordProvenance(pads, records, s);
      } else if step.Loaded? {
        LoadedRecordProvenance(pads, records, s);
      }
    }
  }

  lemma {:induction false} InvalidRecordProvenance(pads: map<Block, LaunchpadBlock>, records: seq<(string, StoredLaunchpad)>, s: Server)
    requires |records| > 0 && LoadLaunchpad(pads, records[0].0, records[0].1, s).Invalid?
    ensures FromRecords(pads, LoadRecords(pads, records, s).pads, records, s)
    decreases |records|, 0
  {
    assert LoadRecords(pads, records, s).pads == LoadRecords(pads, records[1..], s).pads;
    LoadedFromRecords(pads, records[1..], s);
    assert KeyOutcomes(records, s) == [LocateKey(records[0].0, s)] + KeyOutcomes(records[1..], s);
  }

  lemma {:induction false} LoadedRecordProvenance(pads: map<Block, LaunchpadBlock>, records: seq<(string, StoredLaunchpad)>, s: Server)
    requires |records| > 0 && LoadLaunchpad(pads, records[0].0, records[0].1, s).Loaded?
    ensures FromRecords(pads, LoadRecords(pads, records, s).pads, records, s)
    decreases |records|, 0
  {
    var key := records[0].0;
    var next := LoadLaunchpad(pads, key, records[0].1, s).pads;
    var all := LoadRecords(pads, records, s);
    assert all == LoadRecords(next, records[1..], s);
    LoadedFromRecords(next, records[1..], s);
    assert KeyOutcomes(records, s) == [LocateKey(key, s)] + KeyOutcomes(records[1..], s);
    forall b | b in all.pads && b !in pads && b in next
      ensures !s.isAir(s.materialAt(b)) && Located(b) in KeyOutcomes(records, s)
    {
      LoadedBlock(pads, key, records[0].1, s, b);
    }
  }

  /** A block that loading one record adds is not air and is the record's location. */
  lemma LoadedBlock(pads: map<Block, LaunchpadBlock>, key: string, data: StoredLaunchpad, s: Server, b: Block)
    requires LoadLaunchpad(pads, key, data, s).Loaded?
    requires b in LoadLaunchpad(pads, key, data, s).pads && b !in pads
    ensures !s.isAir(s.materialAt(b)) && LocateKey(key, s) == Located(b)
  {
  }

  /** Every block that a record locates and that is not air is in `loaded`. */
  ghost predicate Covers(loaded: map<Block, LaunchpadBlock>, records: seq<(string, StoredLaunchpad)>, s: Server) {
    forall b :: Located(b) in KeyOutcomes(records, s) && !s.isAir(s.materialAt(b)) ==> b in loaded
  }

  /** A loop that reads every record loads every block a record locates that is not air. */
  lemma {:induction false} CompletedLoadCovers(pads: map<Block, LaunchpadBlock>, records: seq<(string, StoredLaunchpad)>, s: Server)
    requires LoadRecords(pads, records, s).completed
    ensures Covers(LoadRecords(pads, records, s).pads, records, s)
    decreases |records|
  {
    if |records| > 0 {
      var key := records[0].0;
      var step := LoadLaunchpad(pads, key, records[0].1, s);
      var all := LoadRecords(pads, records, s);
      assert KeyOutcomes(records, s) == [LocateKey(key, s)] + KeyOutcomes(records[1..], s);
      if step.Invalid? {
        assert all == Progress(LoadRecords(pads, records[1..], s).pads, [key] + LoadRecords(pads, records[1..], s).logged,
                               LoadRecords(pads, records[1..], s).completed);
        CompletedLoadCovers(pads, records[1..], s);
      } else {
        assert step.Loaded?;
        assert all == LoadRecords(step.pads, records[1..], s);
        CompletedLoadCovers(step.pads, records[1..], s);
        FirstRecordLoaded(pads, records, s);
      }
    }
  }

  /** The block the first record locates, when it is not air, is in the map after that record. */
  lemma FirstRecordLoaded(pads: map<Block, LaunchpadBlock>, records: seq<(string, StoredLaunchpad)>, s: Server)
    requires |records| > 0 && LoadLaunchpad(pads, records[0].0, records[0].1, s).Loaded?
    ensures var b := LocateKey(records[0].0, s).block;
      !s.isAir(s.materialAt(b)) ==> b in LoadLaunchpad(pads, records[0].0, records[0].1, s).pads
  {
  }

  /**
   * `loadAll`: the map is replaced by what the records describe; no earlier
   * entry survives. A missing "launchpads" section leaves the map empty.
   */
  function LoadAll(r: Registry, section: Option<seq<(string, StoredLaunchpad)>>, s: Server): (o: LoadOutcome)
    ensures WellFormed(o.registry)
    ensures o.registry.saves == r.saves
    ensures forall b :: b in o.registry.pads ==> !s.isAir(s.materialAt(b))
    ensures section.None? ==> o.registry.pads == map[] && o.completed
    ensures section.Some? ==> forall b :: b in o.registry.pads ==> Located(b) in KeyOutcomes(section.value, s)
    ensures section.Some? && o.completed ==> Covers(o.registry.pads, section.value, s)
    ensures section.Some? ==>
      (o.completed <==> forall i :: 0 <= i < |section.value| ==>
         !Crashes(section.value[i].0, section.value[i].1, s))
    ensures section.Some? && o.completed ==> o.logged == InvalidKeys(section.value, s)
    // The launchpad stored at each block is the one its last record read describes.
    ensures section.Some? ==> forall b :: Written(section.value, b, s).Some? <==> b in o.registry.pads
    ensures section.Some? ==> forall b :: b in o.registry.pads ==> o.registry.pads[b] == Written(section.value, b, s).value
  {
    match section
    case None => LoadOutcome(Registry(map[], r.saves), [], true)
    case Some(records) =>
      var p := LoadRecords(map[], records, s);
      LoadedValues(map[], records, s);
      LoadedFromRecords(map[], records, s);
      assert p.completed ==> Covers(p.pads, records, s) by {
        if p.completed {
          CompletedLoadCovers(map[], records, s);
        }
      }
      LoadOutcome(Registry(p.pads, r.saves), p.logged, p.completed)
  }

  /** What `LaunchpadConfiguration.load` leaves behind: the configuration and the outcome of the registry reload. */
  datatype Reload = Reload(config: Configuration.Config, load: LoadOutcome)

  /**
   * `LaunchpadConfiguration.load` as a whole: the configuration part, then,
   * only when the file has a "launchpad" section, `loadAll` on the data file's
   * "launchpads" section `data`. Without the section the early return skips
   * the reload and the registry stays as it was.
   */
  function LoadConfiguration(c: Configuration.Config, file: Configuration.ConfigFile, r: Registry,
                             data: Option<seq<(string, StoredLaunchpad)>>, s: Server): (o: Reload)
    ensures o.config == Configuration.Load(c, file, s)
    ensures file.launchpad.None? ==> o.load == LoadOutcome(r, [], true)
    ensures file.launchpad.Some? ==> o.load == LoadAll(r, data, s)
    ensures file.launchpad.Some? ==>
      && WellFormed(o.load.registry)
      && o.load.registry.saves == r.saves
      // No earlier launchpad survives unless the data file describes it.
      && (forall b :: b in o.load.registry.pads ==> data.Some? && Located(b) in KeyOutcomes(data.value, s))
      && (data.Some? && o.load.completed ==> Covers(o.load.registry.pads, data.value, s))
  {
    var config := Configuration.Load(c, file, s);
    if file.launchpad.None? then Reload(config, LoadOutcome(r, [], true))
    else Reload(config, LoadAll(r, data, s))
  }

  /**
   * Saving a launchpad and reading its record back restores it, except that
   * the constructor used on load clamps an unset (−1) velocity to 0.
   */
  lemma SaveLoadRoundTrip(pads: map<Block, LaunchpadBlock>, p: LaunchpadBlock, s: Server)
    requires Valid(p)
    requires ReadsIntegers(s) && KnownWorld(p.block.world, s)
    requires !s.isAir(s.materialAt(p.block))
    ensures LoadLaunchpad(pads, StorageKey(p.block), Stored(p), s)
      == Loaded(pads[p.block := p.(horizontal := Max(0.0, p.horizontal), vertical := Max(0.0, p.vertical))])
  {
    LocateStorageKey(p.block, s);
    if p.fixedDirection.Some? {
      FaceNamedName(p.fixedDirection.value);
    }
  }

  /**
   * Consequence: a launchpad whose velocity was unset, and so followed the
   * configured default, reads 0 after a save and reload.
   */
  lemma ReloadPinsUnsetVelocityToZero(p: LaunchpadBlock, s: Server, c: Configuration.Config)
    requires Valid(p) && p.horizontal == -1.0
    requires ReadsIntegers(s) && KnownWorld(p.block.world, s)
    requires !s.isAir(s.materialAt(p.block))
    ensures HorizontalVelocity(p, c, s) == Configuration.DefaultHorizontal(c, s.materialAt(p.block))
    ensures LoadLaunchpad(map[], StorageKey(p.block), Stored(p), s).Loaded?
    ensures p.block in LoadLaunchpad(map[], StorageKey(p.block), Stored(p), s).pads
    ensures HorizontalVelocity(LoadLaunchpad(map[], StorageKey(p.block), Stored(p), s).pads[p.block], c, s) == 0.0
  {
    SaveLoadRoundTrip(map[], p, s);
  }
}

=== FILE: break_listener.dfy ===
/**
 * Removing launchpads whose block is destroyed or moved
 * (LaunchpadBreakListener.java).
 */
module BreakListener {
  import opened Options
  import opened Host
  import opened BlockHandler

  /** The world events the listener handles, with the blocks they carry. */
  datatype BlockEvent =
    | BlockBreak(block: Block)
    | BlockBurn(block: Block)
    | PistonExtend(blocks: seq<Block>)
    | PistonRetract(blocks: seq<Block>)
    | EntityExplode(blocks: seq<Block>)
    | BlockExplode(blocks: seq<Block>)
    | LeavesDecay(block: Block)
    | EntityChangeBlock(block: Block, to: Material)

  /** The blocks an event unregisters, in the order the listener visits them. */
  function Affected(e: BlockEvent, s: Server): (bs: seq<Block>)
    ensures e.BlockBreak? || e.BlockBurn? || e.LeavesDecay? ==> bs == [e.block]
    ensures e.PistonExtend? || e.PistonRetract? || e.EntityExplode? || e.BlockExplode? ==> bs == e.blocks
    ensures e.EntityChangeBlock? ==> (bs == [e.block] <==> s.isAir(e.to)) && (bs == [] <==> !s.isAir(e.to))
  {
    match e
    case BlockBreak(b) => [b]
    case BlockBurn(b) => [b]
    case LeavesDecay(b) => [b]
    case PistonExtend(bs) => bs
    case PistonRetract(bs) => bs
    case EntityExplode(bs) => bs
    case BlockExplode(bs) => bs
    case EntityChangeBlock(b, to) => if s.isAir(to) then [b] else []
  }

  /** `unregisterLaunchpad(Collection<Block>)`: unregisters each block in turn. */
  function UnregisterAll(r: Registry, blocks: seq<Block>): (r': Registry)
    ensures r'.pads.Keys == r.pads.Keys - set b | b in blocks
    ensures forall d :: d !in blocks ==> Get(r', d) == Get(r, d)
    ensures WellFormed(r) ==> WellFormed(r')
    decreases |blocks|
  {
    if |blocks| == 0 then r
    else
      assert forall d :: d in blocks <==> d == blocks[0] || d in blocks[1..];
      UnregisterAll(Unregister(r, blocks[0]), blocks[1..])
  }

  /** The handlers: every event unregisters exactly its affected blocks. */
  function OnBlockEvent(r: Registry, e: BlockEvent, s: Server): (r': Registry)
    ensures forall d :: d in r'.pads <==> d in r.pads && d !in Affected(e, s)
    ensures forall d :: d !in Affected(e, s) ==> Get(r', d) == Get(r, d)
    ensures WellFormed(r) ==> WellFormed(r')
  {
    UnregisterAll(r, Affected(e, s))
  }

  /** An entity changing a block into something other than air leaves the registry as it was. */
  lemma ChangeToNonAirKeepsLaunchpad(r: Registry, b: Block, to: Material, s: Server)
    requires !s.isAir(to)
    ensures OnBlockEvent(r, EntityChangeBlock(b, to), s) == r
  {
  }

  /** Breaking, burning or decaying a launchpad's block removes it and no other launchpad. */
  lemma SingleBlockEventRemoves(r: Registry, e: BlockEvent, s: Server)
    requires e.BlockBreak? || e.BlockBurn? || e.LeavesDecay?
    ensures Get(OnBlockEvent(r, e, s), e.block) == None
    ensures forall d :: d != e.block ==> Get(OnBlockEvent(r, e, s), d) == Get(r, d)
  {
  }

  /** Unregistering a list of blocks twice is the same as once. */
  lemma {:induction false} UnregisterAllIdempotent(r: Registry, blocks: seq<Block>)
    ensures UnregisterAll(UnregisterAll(r, blocks), blocks).pads == UnregisterAll(r, blocks).pads
  {
    var once := UnregisterAll(r, blocks);
    var twice := UnregisterAll(once, blocks);
    forall d | d in twice.pads ensures twice.pads[d] == once.pads[d] {
      assert Get(twice, d) == Get(once, d);
    }
  }
}

=== FILE: command.dfy ===
/**
 * The `/launchpad` command (LaunchpadCommand.java): it validates the action
 * name and its arguments, then files modification requests for the player to
 * apply with the next right-click.
 */
module Command {
  import opened Options
  import opened Strings
  import opened Host
  import opened Actions
  import opened Requests

  /** Who ran the command: the console (or a command block) or a player. */
  datatype Sender = Console | Player(id: PlayerId)

  /** The command's boolean result and the request store afterwards. */
  datatype Outcome = Outcome(handled: bool, store: Store)

  /** `nullArgument`: "null" in any case becomes None; every other token is kept as it is. */
  function NullArgument(token: string): (r: Option<string>)
    ensures r.None? <==> EqualsIgnoreCase(token, "null")
    ensures r.Some? ==> r.value == token
  {
    if EqualsIgnoreCase(token, "null") then None else Some(token)
  }

  /** Arguments `from` .. `count` (1-based after the action name) are all valid. */
  function ValidFrom(a: Action, arguments: seq<string>, from: nat, count: nat, s: Server): (r: bool)
    requires count < |arguments|
    ensures r <==> forall i :: from <= i <= count ==> a.IsValidArgument(arguments[i], s)
    decreases count + 1 - from
  {
    if from > count then true
    else a.IsValidArgument(arguments[from], s) && ValidFrom(a, arguments, from + 1, count, s)
  }

  /** `hasValidArguments`: each of the action's needed arguments passes `isValidArgument`. */
  function HasValidArguments(a: Action, arguments: seq<string>, s: Server): (r: bool)
    requires a.NeededArguments() < |arguments|
    ensures r <==> forall i :: 1 <= i <= a.NeededArguments() ==> a.IsValidArgument(arguments[i], s)
  {
    ValidFrom(a, arguments, 1, a.NeededArguments(), s)
  }

  /** The action and arguments are accepted: known name, enough arguments, all needed ones valid. */
  predicate Accepted(arguments: seq<string>, s: Server) {
    && |arguments| >= 1
    && FromCommandName(arguments[0]).Some?
    && var a := FromCommandName(arguments[0]).value;
       |arguments| > a.NeededArguments() && HasValidArguments(a, arguments, s)
  }

  /**
   * The `switch` of `onCommand`: what an accepted action does to the player's
   * pending requests.
   */
  function File(st: Store, p: PlayerId, a: Action, arguments: seq<string>): (r: Store)
    requires |arguments| > a.NeededArguments()
    ensures forall o :: o != p ==> Lookup(r, o) == Lookup(st, o)
    ensures match a
      case Add | Remove => Lookup(r, p) == Some(PendingOf(st, p) + {Request(a, None)})
      case VerticalVelocity | HorizontalVelocity | FixedDirection =>
        Lookup(r, p) == Some(PendingOf(st, p) + {Request(a, NullArgument(arguments[1]))})
      case Velocities =>
        Lookup(r, p) == Some(PendingOf(st, p)
          + {Request(HorizontalVelocity, NullArgument(arguments[1])), Request(VerticalVelocity, NullArgument(arguments[2]))})
      case Abort => Lookup(r, p) == None
  {
    match a
    case Add | Remove => AddRequest(st, p, Request(a, None))
    case VerticalVelocity | HorizontalVelocity | FixedDirection =>
      AddRequest(st, p, Request(a, NullArgument(arguments[1])))
    case Abort => GetRequests(st, p).store
    case Velocities =>
      var h := Request(HorizontalVelocity, NullArgument(arguments[1]));
      var v := Request(VerticalVelocity, NullArgument(arguments[2]));
      var first := AddRequest(st, p, h);
      assert PendingOf(first, p) + {v} == PendingOf(st, p) + {h, v};
      AddRequest(first, p, v)
  }

  /** `onCommand`, reduced to its effect on the request store and its result. */
  function OnCommand(st: Store, sender: Sender, arguments: seq<string>, s: Server): (o: Outcome)
    // Only players, with an accepted action, get true; everyone else changes nothing.
    ensures o.handled <==> sender.Player? && Accepted(arguments, s)
    ensures !o.handled ==> o.store == st
    // Other players' pending requests are never touched.
    ensures forall p :: (sender.Console? || p != sender.id) ==> Lookup(o.store, p) == Lookup(st, p)
    ensures o.handled ==> o.store == File(st, sender.id, FromCommandName(arguments[0]).value, arguments)
  {
    if sender.Console? then Outcome(false, st)
    else if |arguments| < 1 then Outcome(false, st)
    else
      var action := FromCommandName(arguments[0]);
      if action.None? then Outcome(false, st)
      else
        var a := action.value;
        if |arguments| <= a.NeededArguments() || !HasValidArguments(a, arguments, s) then Outcome(false, st)
        else Outcome(true, File(st, sender.id, a, arguments))
  }

  /** Every request the command files has the storable shape. */
  lemma {:induction false} FiledRequestIsStorable(a: Action, arguments: seq<string>, i: nat, filed: Action, s: Server)
    requires Accepted(arguments, s) && a == FromCommandName(arguments[0]).value
    requires 1 <= i <= a.NeededArguments()
    requires filed == (if a == Velocities then (if i == 1 then HorizontalVelocity else VerticalVelocity) else a)
    ensures Storable(Request(filed, NullArgument(arguments[i])), s)
  {
    assert a.IsValidArgument(arguments[i], s);
    var v := NullArgument(arguments[i]);
    if v.Some? {
      assert !EqualsIgnoreCase(arguments[i], "null");
      if a == Velocities {
        VelocityArgument(a, arguments[i], s);
        VelocityArgument(filed, arguments[i], s);
      }
    }
  }

  /** The command keeps the store well-formed, so no ABORT or VELOCITIES request is ever stored. */
  lemma CommandPreservesWellFormed(st: Store, sender: Sender, arguments: seq<string>, s: Server)
    requires WellFormedStore(st, s)
    ensures WellFormedStore(OnCommand(st, sender, arguments, s).store, s)
  {
    if sender.Player? && Accepted(arguments, s) {
      var a := FromCommandName(arguments[0]).value;
      var p := sender.id;
      match a
      case Add | Remove =>
        AddPreservesWellFormed(st, p, Request(a, None), s);
      case VerticalVelocity | HorizontalVelocity | FixedDirection =>
        FiledRequestIsStorable(a, arguments, 1, a, s);
        AddPreservesWellFormed(st, p, Request(a, NullArgument(arguments[1])), s);
      case Abort =>
        DrainPreservesWellFormed(st, p, s);
      case Velocities =>
        var h := Request(HorizontalVelocity, NullArgument(arguments[1]));
        var v := Request(VerticalVelocity, NullArgument(arguments[2]));
        FiledRequestIsStorable(a, arguments, 1, HorizontalVelocity, s);
        FiledRequestIsStorable(a, arguments, 2, VerticalVelocity, s);
        AddPreservesWellFormed(st, p, h, s);
        AddPreservesWellFormed(AddRequest(st, p, h), p, v, s);
    }
  }

  /** Trailing arguments beyond the needed ones are ignored. */
  lemma ExtraArgumentsIgnored(st: Store, sender: Sender, arguments: seq<string>, extra: seq<string>, s: Server)
    requires |arguments| >= 1 && FromCommandName(arguments[0]).Some?
    requires |arguments| > FromCommandName(arguments[0]).value.NeededArguments()
    ensures OnCommand(st, sender, arguments + extra, s) == OnCommand(st, sender, arguments, s)
  {
    var all := arguments + extra;
    assert all[0] == arguments[0];
    var a := FromCommandName(arguments[0]).value;
    assert forall i :: 1 <= i <= a.NeededArguments() ==> all[i] == arguments[i];
    assert HasValidArguments(a, all, s) == HasValidArguments(a, arguments, s);
  }
}

=== FILE: configuration.dfy ===
/**
 * The launchpad part of the plugin configuration (LaunchpadConfiguration.java):
 * which materials launch on their own, which materials may become registered
 * launchpads, and the default velocities.
 *
 * The configuration file is given already read: material lists arrive as
 * resolved materials (the tag and "+" syntax of the file is not modelled), and
 * a missing numeric key is None.
 */
module Configuration {
  import opened Options
  import opened Host

  /** The "launchpad" section of the configuration file. */
  datatype LaunchpadSection = LaunchpadSection(
    materials: Option<seq<Material>>,
    materialWhitelist: Option<seq<Material>>,
    horizontalVelocity: Option<real>,
    verticalVelocity: Option<real>,
    // "materialVelocities.<MATERIAL>.horizontalVelocity" and ".verticalVelocity"
    materialHorizontalVelocities: map<Material, real>,
    materialVerticalVelocities: map<Material, real>)

  /** A configuration file, which may lack the "launchpad" section. */
  datatype ConfigFile = ConfigFile(launchpad: Option<LaunchpadSection>)

  /** The fields of a LaunchpadConfiguration the core reads. */
  datatype Config = Config(
    file: ConfigFile,
    horizontalVelocity: real,
    verticalVelocity: real,
    launchpadMaterials: set<Material>,
    materialWhitelist: set<Material>)

  /** `isNotLaunchpadMaterial` */
  predicate IsNotLaunchpadMaterial(c: Config, m: Material): (not: bool)
    ensures m !in c.launchpadMaterials ==> not
    ensures m in c.launchpadMaterials ==> !not
  {
    m !in c.launchpadMaterials
  }

  /** `isMaterialWhitelisted`: an empty whitelist admits every material. */
  predicate IsMaterialWhitelisted(c: Config, m: Material): (ok: bool)
    ensures c.materialWhitelist == {} ==> ok
    ensures m in c.materialWhitelist ==> ok
    ensures c.materialWhitelist != {} && m !in c.materialWhitelist ==> !ok
  {
    c.materialWhitelist == {} || m in c.materialWhitelist
  }

  /** `loadMaterials`: the listed materials that are blocks; no list gives the empty set. */
  function LoadMaterials(list: Option<seq<Material>>, s: Server): (r: set<Material>)
    ensures forall m :: m in r ==> s.isBlock(m)
    ensures forall m :: m in r <==> list.Some? && m in list.value && s.isBlock(m)
  {
    match list
    case None => {}
    case Some(ms) => set m | m in ms && s.isBlock(m)
  }

  /**
   * The configuration part of `load`: the file is adopted first; without a
   * "launchpad" section the method returns early and the material sets and
   * global velocities keep their previous values. The registry reload that
   * follows is composed in `BlockHandler.LoadConfiguration`.
   */
  function Load(c: Config, file: ConfigFile, s: Server): (r: Config)
    ensures r.file == file
    ensures file.launchpad.None? ==>
      && r.launchpadMaterials == c.launchpadMaterials
      && r.materialWhitelist == c.materialWhitelist
      && r.horizontalVelocity == c.horizontalVelocity
      && r.verticalVelocity == c.verticalVelocity
    ensures file.launchpad.Some? ==>
      && r.launchpadMaterials == LoadMaterials(file.launchpad.value.materials, s)
      && r.materialWhitelist == LoadMaterials(file.launchpad.value.materialWhitelist, s)
      && (forall m :: m in r.launchpadMaterials ==> s.isBlock(m))
      && (forall m :: m in r.materialWhitelist ==> s.isBlock(m))
      && r.horizontalVelocity == file.launchpad.value.horizontalVelocity.GetOr(0.0)
      && r.verticalVelocity == file.launchpad.value.verticalVelocity.GetOr(0.0)
  {
    match file.launchpad
    case None => c.(file := file)
    case Some(section) =>
      Config(
        file,
        section.horizontalVelocity.GetOr(0.0),
        section.verticalVelocity.GetOr(0.0),
        LoadMaterials(section.materials, s),
        LoadMaterials(section.materialWhitelist, s))
  }

  /** The per-material horizontal velocity in the file, −1 when absent (`getDouble(path, -1)`). */
  function ConfiguredHorizontal(file: ConfigFile, m: Material): real {
    match file.launchpad
    case None => -1.0
    case Some(section) =>
      if m in section.materialHorizontalVelocities then section.materialHorizontalVelocities[m] else -1.0
  }

  /** The per-material vertical velocity in the file, −1 when absent. */
  function ConfiguredVertical(file: ConfigFile, m: Material): real {
    match file.launchpad
    case None => -1.0
    case Some(section) =>
      if m in section.materialVerticalVelocities then section.materialVerticalVelocities[m] else -1.0
  }

  /**
   * `getHorizontalVelocity(material)`: a non-negative per-material value wins;
   * otherwise the global value, floored at 0. Never negative.
   */
  function DefaultHorizontal(c: Config, m: Material): (r: real)
    ensures r >= 0.0
    ensures ConfiguredHorizontal(c.file, m) >= 0.0 ==> r == ConfiguredHorizontal(c.file, m)
    ensures ConfiguredHorizontal(c.file, m) < 0.0 && c.horizontalVelocity >= 0.0 ==> r == c.horizontalVelocity
    ensures ConfiguredHorizontal(c.file, m) < 0.0 && c.horizontalVelocity < 0.0 ==> r == 0.0
  {
    var configured := ConfiguredHorizontal(c.file, m);
    if configured >= 0.0 then configured else Max(c.horizontalVelocity, 0.0)
  }

  /** `getVerticalVelocity(material)`, the same policy for the vertical component. */
  function DefaultVertical(c: Config, m: Material): (r: real)
    ensures r >= 0.0
    ensures ConfiguredVertical(c.file, m) >= 0.0 ==> r == ConfiguredVertical(c.file, m)
    ensures ConfiguredVertical(c.file, m) < 0.0 && c.verticalVelocity >= 0.0 ==> r == c.verticalVelocity
    ensures ConfiguredVertical(c.file, m) < 0.0 && c.verticalVelocity < 0.0 ==> r == 0.0
  {
    var configured := ConfiguredVertical(c.file, m);
    if configured >= 0.0 then configured else Max(c.verticalVelocity, 0.0)
  }

  /**
   * Reloading a file without a "launchpad" section keeps the material sets and
   * global velocities, but the per-material velocities are read from the new
   * file and so disappear: every default falls back to the global value.
   */
  lemma LoadWithoutSectionDropsMaterialVelocities(c: Config, file: ConfigFile, s: Server, m: Material)
    requires file.launchpad.None?
    ensures IsMaterialWhitelisted(Load(c, file, s), m) == IsMaterialWhitelisted(c, m)
    ensures IsNotLaunchpadMaterial(Load(c, file, s), m) == IsNotLaunchpadMaterial(c, m)
    ensures DefaultHorizontal(Load(c, file, s), m) == Max(c.horizontalVelocity, 0.0)
    ensures DefaultVertical(Load(c, file, s), m) == Max(c.verticalVelocity, 0.0)
  {
  }

  /**
   * After a load with a "launchpad" section, a material is whitelisted iff the
   * whitelist names no block material at all, or names this one and it is a block.
   */
  lemma LoadedWhitelist(c: Config, file: ConfigFile, s: Server, m: Material)
    requires file.launchpad.Some?
    ensures IsMaterialWhitelisted(Load(c, file, s), m) <==>
      (forall n :: n in LoadMaterials(file.launchpad.value.materialWhitelist, s) ==> false)
      || (file.launchpad.value.materialWhitelist.Some?
          && m in file.launchpad.value.materialWhitelist.value && s.isBlock(m))
  {
    var w := LoadMaterials(file.launchpad.value.materialWhitelist, s);
    if w != {} {
      var n :| n in w;
    }
  }

  /** Only block materials ever launch as bare materials after a load with a "launchpad" section. */
  lemma LoadedLaunchMaterialsAreBlocks(c: Config, file: ConfigFile, s: Server, m: Material)
    requires file.launchpad.Some?
    requires !IsNotLaunchpadMaterial(Load(c, file, s), m)
    ensures s.isBlock(m)
    ensures file.launchpad.value.materials.Some? && m in file.launchpad.value.materials.value
  {
  }
}

=== FILE: host.dfy ===
/**
 * The game server the plugin runs in, reduced to what the plugin asks of it.
 *
 * Blocks, materials and block faces are plain values. Everything the server
 * decides on its own (the material at a block, whether a material is air,
 * whether a block is passable, number parsing, world lookup by UUID) is a
 * function field of `Server`, so every property proved below holds for every
 * server.
 */
module Host {
  import opened Options

  /** A material (`org.bukkit.Material`), known by its enum name. */
  datatype Material = Material(name: string)

  /** A block position: the world's UUID text and integer coordinates. Two blocks are equal iff all four agree. */
  datatype Block = Block(world: string, x: int, y: int, z: int)

  /** `Math.max` on doubles (NaN is not modelled). */
  function Max(a: real, b: real): real {
    if a >= b then a else b
  }

  /** `org.bukkit.event.block.Action`: the kind of player interaction. */
  datatype ClickAction = LeftClickBlock | RightClickBlock | LeftClickAir | RightClickAir | Physical

  /** `org.bukkit.util.Vector` */
  datatype Vec3 = Vec3(x: real, y: real, z: real)

  function Add(a: Vec3, b: Vec3): Vec3 {
    Vec3(a.x + b.x, a.y + b.y, a.z + b.z)
  }

  function Scale(a: Vec3, k: real): Vec3 {
    Vec3(a.x * k, a.y * k, a.z * k)
  }

  function Dot(a: Vec3, b: Vec3): real {
    a.x * b.x + a.y * b.y + a.z * b.z
  }

  function Cross(a: Vec3, b: Vec3): Vec3 {
    Vec3(a.y * b.z - a.z * b.y, a.z * b.x - a.x * b.z, a.x * b.y - a.y * b.x)
  }

  /** `org.bukkit.block.BlockFace`, in its declaration order, with its integer offsets. */
  datatype Face =
    | North | East | South | West | Up | Down
    | NorthEast | NorthWest | SouthEast | SouthWest
    | WestNorthWest | NorthNorthWest | NorthNorthEast | EastNorthEast
    | EastSouthEast | SouthSouthEast | SouthSouthWest | WestSouthWest
    | Self
  {
    /** The enum constant's name, as `name()` returns it. */
    function Name(): string {
      match this
      case North => "NORTH"
      case East => "EAST"
      case South => "SOUTH"
      case West => "WEST"
      case Up => "UP"
      case Down => "DOWN"
      case NorthEast => "NORTH_EAST"
      case NorthWest => "NORTH_WEST"
      case SouthEast => "SOUTH_EAST"
      case SouthWest => "SOUTH_WEST"
      case WestNorthWest => "WEST_NORTH_WEST"
      case NorthNorthWest => "NORTH_NORTH_WEST"
      case NorthNorthEast => "NORTH_NORTH_EAST"
      case EastNorthEast => "EAST_NORTH_EAST"
      case EastSouthEast => "EAST_SOUTH_EAST"
      case SouthSouthEast => "SOUTH_SOUTH_EAST"
      case SouthSouthWest => "SOUTH_SOUTH_WEST"
      case WestSouthWest => "WEST_SOUTH_WEST"
      case Self => "SELF"
    }

    function ModX(): int {
      match this
      case East | NorthEast | SouthEast | NorthNorthEast | SouthSouthEast => 1
      case EastNorthEast | EastSouthEast => 2
      case West | NorthWest | SouthWest | NorthNorthWest | SouthSouthWest => -1
      case WestNorthWest | WestSouthWest => -2
      case North | South | Up | Down | Self => 0
    }

    function ModY(): int {
      match this
      case Up => 1
      case Down => -1
      case _ => 0
    }

    function ModZ(): int {
      match this
      case South | SouthEast | SouthWest | EastSouthEast | WestSouthWest => 1
      case SouthSouthEast | SouthSouthWest => 2
      case North | NorthEast | NorthWest | WestNorthWest | EastNorthEast => -1
      case NorthNorthWest | NorthNorthEast => -2
      case East | West | Up | Down | Self => 0
    }
  }

  /** `BlockFace.values()` */
  const AllFaces: seq<Face> := [
    North, East, South, West, Up, Down,
    NorthEast, NorthWest, SouthEast, SouthWest,
    WestNorthWest, NorthNorthWest, NorthNorthEast, EastNorthEast,
    EastSouthEast, SouthSouthEast, SouthSouthWest, WestSouthWest,
    Self
  ]

  lemma AllFacesListsEveryFace(f: Face)
    ensures f in AllFaces
  {
  }

  function FindFace(faces: seq<Face>, name: string): (r: Option<Face>)
    ensures r.Some? ==> r.value in faces && r.value.Name() == name
    ensures r.None? ==> forall f :: f in faces ==> f.Name() != name
    decreases |faces|
  {
    if |faces| == 0 then None
    else if faces[0].Name() == name then Some(faces[0])
    else FindFace(faces[1..], name)
  }

  /** `BlockFace.valueOf(name)`: None stands for the IllegalArgumentException of an unknown name. */
  function FaceNamed(name: string): (r: Option<Face>)
    ensures r.Some? ==> r.value.Name() == name
    ensures r.None? ==> forall f: Face :: f.Name() != name
  {
    var r := FindFace(AllFaces, name);
    if r.None? then
      forall f: Face ensures f.Name() != name {
        AllFacesListsEveryFace(f);
      }
      r
    else r
  }

  /** Distinct faces have distinct names. */
  lemma FaceNamesDistinct(f: Face, g: Face)
    requires f.Name() == g.Name()
    ensures f == g
  {
    assert |f.Name()| == |g.Name()|;
    assert f.Name()[..2] == g.Name()[..2];
  }

  /** `valueOf` inverts `name()`. */
  lemma FaceNamedName(f: Face)
    ensures FaceNamed(f.Name()) == Some(f)
  {
    AllFacesListsEveryFace(f);
    var r := FaceNamed(f.Name());
    FaceNamesDistinct(f, r.value);
  }

  /**
   * The host operations the plugin calls. `parseDouble` is `Double.parseDouble`
   * (None is a NumberFormatException); `parseUuid` is how `UUID.fromString`
   * treats a text; `worldOf` is `Bukkit.getWorld` on that UUID, giving the
   * world's UUID text or None for no loaded world. `invSqrt2` and `invSqrt5`
   * are the factors 1/√2 and 1/√5 by which `BlockFace.getDirection` scales the
   * offsets of the diagonal faces to unit length.
   */
  /**
   * The outcomes of `UUID.fromString`: a UUID, a NumberFormatException (five
   * dash-separated groups, one of them not hexadecimal), or any other
   * IllegalArgumentException (the wrong shape, or too long).
   */
  datatype UuidParse = Uuid | UuidNumberFormat | UuidMalformed

  datatype Host = Host(
    materialAt: Block -> Material,
    isAir: Material -> bool,
    isBlock: Material -> bool,
    isPressurePlate: Material -> bool,
    isPassable: Block -> bool,
    parseDouble: string -> Option<real>,
    parseUuid: string -> UuidParse,
    worldOf: string -> Option<string>,
    invSqrt2: real,
    invSqrt5: real)

  type Server = h: Host | h.invSqrt2 > 0.0 && h.invSqrt5 > 0.0
    witness Host(
      b => Material("AIR"), m => true, m => false, m => false, b => true,
      t => None, t => UuidMalformed, t => None, 1.0, 1.0)

  /**
   * The reciprocal of the length of a diagonal face's offset vector: 1/√2 when
   * the two offsets have the same size, 1/√5 when one is twice the other.
   */
  function Shrink(f: Face, s: Server): (k: real)
    requires f.ModX() != 0 && f.ModZ() != 0
    ensures k > 0.0
  {
    if f.ModX() == f.ModZ() || f.ModX() == -f.ModZ() then s.invSqrt2 else s.invSqrt5
  }

  /**
   * `BlockFace.getDirection()`: the face's offsets scaled to unit length. The
   * offsets of a face along an axis already have length 1 (0 for SELF).
   */
  function Direction(f: Face, s: Server): Vec3 {
    if f.ModX() == 0 || f.ModZ() == 0 then Vec3(f.ModX() as real, f.ModY() as real, f.ModZ() as real)
    else
      var k := Shrink(f, s);
      Vec3(f.ModX() as real * k, f.ModY() as real * k, f.ModZ() as real * k)
  }

  /**
   * The plane test used by the plugin: the dot product of the face's direction
   * with WEST x NORTH is zero.
   */
  predicate InXZPlane(f: Face, s: Server) {
    Dot(Direction(f, s), Cross(Direction(West, s), Direction(North, s))) == 0.0
  }

  /** The plane test accepts exactly the faces without a vertical offset. */
  lemma InXZPlaneIffLevel(f: Face, s: Server)
    ensures InXZPlane(f, s) <==> f.ModY() == 0
  {
    PlaneNormal(s);
    DotWithDown(Direction(f, s));
    VerticalComponent(f, s);
  }

  /** The vertical component of a direction is zero exactly for level faces. */
  lemma VerticalComponent(f: Face, s: Server)
    ensures Direction(f, s).y == 0.0 <==> f.ModY() == 0
  {
    if f.ModX() != 0 && f.ModZ() != 0 {
      assert f.ModY() == 0;
      assert Direction(f, s).y == 0.0 * Shrink(f, s);
    }
  }

  /** WEST x NORTH points straight down. */
  lemma PlaneNormal(s: Server)
    ensures Cross(Direction(West, s), Direction(North, s)) == Vec3(0.0, -1.0, 0.0)
  {
    WestAndNorth(s);
    assert Cross(Vec3(-1.0, 0.0, 0.0), Vec3(0.0, 0.0, -1.0)) == Vec3(0.0, -1.0, 0.0);
  }

  /** WEST and NORTH lie along the axes, so their directions are their offsets. */
  lemma WestAndNorth(s: Server)
    ensures Direction(West, s) == Vec3(-1.0, 0.0, 0.0)
    ensures Direction(North, s) == Vec3(0.0, 0.0, -1.0)
  {
  }

  lemma DotWithDown(d: Vec3)
    ensures Dot(d, Vec3(0.0, -1.0, 0.0)) == -d.y
  {
  }

}

=== FILE: launchpad_block.dfy ===
/**
 * A registered launchpad (LaunchpadBlock.java): its block, the raw stored
 * velocities (−1 means "use the configured default"), and an optional fixed
 * launch direction.
 */
module Launchpads {
  import opened Options
  import opened Host
  import opened Configuration

  datatype LaunchpadBlock = LaunchpadBlock(
    block: Block,
    horizontal: real,
    vertical: real,
    fixedDirection: Option<Face>)

  /**
   * What every launchpad the plugin can construct satisfies: each raw velocity
   * is either the unset marker −1 or non-negative, and a fixed direction lies
   * in the horizontal plane.
   */
  predicate Valid(p: LaunchpadBlock) {
    && (p.horizontal == -1.0 || p.horizontal >= 0.0)
    && (p.vertical == -1.0 || p.vertical >= 0.0)
    && (p.fixedDirection.Some? ==> p.fixedDirection.value.ModY() == 0)
  }

  /** `new LaunchpadBlock(block)`: both velocities unset, no fixed direction. */
  function Fresh(b: Block): (p: LaunchpadBlock)
    ensures Valid(p) && p.block == b
  {
    LaunchpadBlock(b, -1.0, -1.0, None)
  }

  /** `setHorizontalVelocity`: stores the value clamped at 0 and touches nothing else. */
  function SetHorizontalVelocity(p: LaunchpadBlock, v: real): (q: LaunchpadBlock)
    ensures q.horizontal >= 0.0
    ensures v >= 0.0 ==> q.horizontal == v
    ensures v < 0.0 ==> q.horizontal == 0.0
    ensures q.block == p.block && q.vertical == p.vertical && q.fixedDirection == p.fixedDirection
    ensures Valid(p) ==> Valid(q)
  {
    p.(horizontal := Max(0.0, v))
  }

  /** `setVerticalVelocity`: stores the value clamped at 0 and touches nothing else. */
  function SetVerticalVelocity(p: LaunchpadBlock, v: real): (q: LaunchpadBlock)
    ensures q.vertical >= 0.0
    ensures v >= 0.0 ==> q.vertical == v
    ensures v < 0.0 ==> q.vertical == 0.0
    ensures q.block == p.block && q.horizontal == p.horizontal && q.fixedDirection == p.fixedDirection
    ensures Valid(p) ==> Valid(q)
  {
    p.(vertical := Max(0.0, v))
  }

  /**
   * `setFixedDirection`: None clears the direction; a face off the horizontal
   * plane (UP, DOWN) is silently ignored; any other face is stored.
   */
  function SetFixedDirection(p: LaunchpadBlock, f: Option<Face>, s: Server): (q: LaunchpadBlock)
    ensures f.None? ==> q == p.(fixedDirection := None)
    ensures f.Some? && f.value.ModY() == 0 ==> q == p.(fixedDirection := f)
    ensures f.Some? && f.value.ModY() != 0 ==> q == p
    ensures Valid(p) ==> Valid(q)
  {
    if f.None? then p.(fixedDirection := None)
    else
      InXZPlaneIffLevel(f.value, s);
      if !InXZPlane(f.value, s) then p else p.(fixedDirection := f)
  }

  /** `new LaunchpadBlock(block, h, v, direction)`: the three setters applied to Java's zeroed fields. */
  function Create(b: Block, h: real, v: real, f: Option<Face>, s: Server): (p: LaunchpadBlock)
    ensures Valid(p)
    ensures p.block == b
    ensures p.horizontal == Max(0.0, h) && p.vertical == Max(0.0, v)
    ensures p.fixedDirection == (if f.Some? && f.value.ModY() == 0 then f else None)
  {
    var zeroed := LaunchpadBlock(b, 0.0, 0.0, None);
    SetFixedDirection(SetVerticalVelocity(SetHorizontalVelocity(zeroed, h), v), f, s)
  }

  /**
   * `getHorizontalVelocity`: the stored value when it is set (≥ 0), else the
   * configured default for the block's current material. Never negative.
   */
  function HorizontalVelocity(p: LaunchpadBlock, c: Config, s: Server): (r: real)
    ensures r >= 0.0
    ensures p.horizontal >= 0.0 ==> r == p.horizontal
    ensures p.horizontal < 0.0 ==> r == DefaultHorizontal(c, s.materialAt(p.block))
  {
    if p.horizontal >= 0.0 then p.horizontal else DefaultHorizontal(c, s.materialAt(p.block))
  }

  /** `getVerticalVelocity`, the same rule for the vertical component. */
  function VerticalVelocity(p: LaunchpadBlock, c: Config, s: Server): (r: real)
    ensures r >= 0.0
    ensures p.vertical >= 0.0 ==> r == p.vertical
    ensures p.vertical < 0.0 ==> r == DefaultVertical(c, s.materialAt(p.block))
  {
    if p.vertical >= 0.0 then p.vertical else DefaultVertical(c, s.materialAt(p.block))
  }

  /** A launchpad made from a block alone reads the configured defaults and has no fixed direction. */
  lemma FreshReadsDefaults(b: Block, c: Config, s: Server)
    ensures HorizontalVelocity(Fresh(b), c, s) == DefaultHorizontal(c, s.materialAt(b))
    ensures VerticalVelocity(Fresh(b), c, s) == DefaultVertical(c, s.materialAt(b))
    ensures Fresh(b).fixedDirection == None
  {
  }

  /**
   * Once a setter has run, the getter never consults the configuration: it
   * reads back the value clamped at 0, so setting −1 (the "null" request)
   * reads back as 0 and not as the default.
   */
  lemma SetThenGetVelocity(p: LaunchpadBlock, v: real, c: Config, s: Server)
    ensures HorizontalVelocity(SetHorizontalVelocity(p, v), c, s) == Max(0.0, v)
    ensures VerticalVelocity(SetVerticalVelocity(p, v), c, s) == Max(0.0, v)
    ensures HorizontalVelocity(SetHorizontalVelocity(p, -1.0), c, s) == 0.0
  {
  }

  /** The same holds for the four-argument constructor, whatever the configuration says. */
  lemma CreateIgnoresDefaults(b: Block, h: real, v: real, f: Option<Face>, s: Server, c: Config)
    ensures HorizontalVelocity(Create(b, h, v, f, s), c, s) == Max(0.0, h)
    ensures VerticalVelocity(Create(b, h, v, f, s), c, s) == Max(0.0, v)
  {
  }
}

=== FILE: modify_listener.dfy ===
/**
 * Applying pending modification requests (LaunchpadModifyListener.java): a
 * right-click on a block drains the player's pending requests, applies them to
 * the clicked block one at a time, and re-queues those that failed.
 */
module ModifyListener {
  import opened Options
  import opened Strings
  import opened Host
  import opened Configuration
  import opened Launchpads
  import opened BlockHandler
  import opened Actions
  import opened Requests

  /** The chat message sent to the player after a batch. */
  datatype Message = ModifiedLaunchpad | NotWhitelisted

  /** The velocity a request asks for: its parsed value, or −1 for a null value. */
  function RequestedVelocity(q: Request, s: Server): real
    requires ValueParses(q, s)
    requires q.action == HorizontalVelocity || q.action == VerticalVelocity
  {
    if q.value.Some? then s.parseDouble(q.value.value).value else -1.0
  }

  /** The direction a request asks for: the face its upper-cased value names, or None for a null value. */
  function RequestedFace(q: Request): Option<Face>
    requires q.action == FixedDirection
    requires q.value.Some? ==> FaceNamed(Upper(q.value.value)).Some?
  {
    if q.value.Some? then FaceNamed(Upper(q.value.value)) else None
  }

  /**
   * The `switch` of `handleRequest` applied to a launchpad: each request changes
   * only the property it names; ADD (and REMOVE reaching this point) changes
   * nothing.
   */
  function Modify(p: LaunchpadBlock, q: Request, s: Server): (p': LaunchpadBlock)
    requires ValueParses(q, s)
    ensures p'.block == p.block
    ensures Valid(p) ==> Valid(p')
    ensures q.action == HorizontalVelocity ==>
      p'.horizontal == Max(0.0, RequestedVelocity(q, s)) && p'.vertical == p.vertical && p'.fixedDirection == p.fixedDirection
    ensures q.action == VerticalVelocity ==>
      p'.vertical == Max(0.0, RequestedVelocity(q, s)) && p'.horizontal == p.horizontal && p'.fixedDirection == p.fixedDirection
    ensures q.action == FixedDirection ==>
      && p'.horizontal == p.horizontal && p'.vertical == p.vertical
      && (q.value.None? ==> p'.fixedDirection == None)
      && (q.value.Some? && RequestedFace(q).value.ModY() == 0 ==> p'.fixedDirection == RequestedFace(q))
      && (q.value.Some? && RequestedFace(q).value.ModY() != 0 ==> p'.fixedDirection == p.fixedDirection)
    ensures q.action != HorizontalVelocity && q.action != VerticalVelocity && q.action != FixedDirection ==> p' == p
  {
    match q.action
    case VerticalVelocity => SetVerticalVelocity(p, RequestedVelocity(q, s))
    case HorizontalVelocity => SetHorizontalVelocity(p, RequestedVelocity(q, s))
    case FixedDirection => SetFixedDirection(p, RequestedFace(q), s)
    case _ => p
  }

  /** The result of `handleRequest` and the registry afterwards. */
  datatype Handled = Handled(success: bool, registry: Registry)

  /** The launchpad a request works on: the registered one, or a fresh one for the block. */
  function Target(r: Registry, b: Block): (p: LaunchpadBlock)
    ensures b in r.pads ==> p == r.pads[b]
    ensures b !in r.pads ==> p == Fresh(b)
  {
    if b in r.pads then r.pads[b] else Fresh(b)
  }

  /**
   * `handleRequest`. It fails, changing nothing, exactly when the block is not
   * registered and its material is not whitelisted. REMOVE unregisters a
   * registered block. Otherwise the changed launchpad is registered under the
   * block (REMOVE on an unregistered block thus creates a launchpad). Every
   * success writes the data file exactly once.
   */
  function HandleRequest(q: Request, b: Block, r: Registry, c: Config, s: Server): (h: Handled)
    requires ValueParses(q, s)
    ensures h.success <==> b in r.pads || IsMaterialWhitelisted(c, s.materialAt(b))
    ensures !h.success ==> h.registry == r
    ensures h.success ==> h.registry.saves == r.saves + 1
    ensures forall d :: d != b ==> Get(h.registry, d) == Get(r, d)
    ensures q.action == Remove && b in r.pads ==> Get(h.registry, b) == None
    ensures h.success && !(q.action == Remove && b in r.pads) ==> Get(h.registry, b) == Some(Modify(Target(r, b), q, s))
    ensures WellFormed(r) ==> WellFormed(h.registry)
  {
    var existing := Get(r, b);
    var isLaunchpad := existing.Some?;
    if !isLaunchpad && !IsMaterialWhitelisted(c, s.materialAt(b)) then Handled(false, r)
    else
      var pad := if isLaunchpad then existing.value else Fresh(b);
      if q.action == Remove && isLaunchpad then Handled(true, Unregister(r, b))
      else
        var changed := Modify(pad, q, s);
        if !isLaunchpad then Handled(true, Register(r, changed))
        else Handled(true, SaveAll(r.(pads := r.pads[b := changed])))
  }

  /** REMOVE on an unregistered, whitelisted block registers a fresh launchpad. */
  lemma RemoveCreatesLaunchpad(b: Block, r: Registry, c: Config, s: Server)
    requires b !in r.pads && IsMaterialWhitelisted(c, s.materialAt(b))
    ensures HandleRequest(Request(Remove, None), b, r, c, s).success
    ensures Get(HandleRequest(Request(Remove, None), b, r, c, s).registry, b) == Some(Fresh(b))
  {
  }

  /** A null velocity stores 0, not the unset marker: the launchpad stops following the configured default. */
  lemma NullVelocityStoresZero(b: Block, r: Registry, c: Config, s: Server)
    requires b in r.pads || IsMaterialWhitelisted(c, s.materialAt(b))
    ensures Get(HandleRequest(Request(HorizontalVelocity, None), b, r, c, s).registry, b).value.horizontal == 0.0
    ensures Get(HandleRequest(Request(VerticalVelocity, None), b, r, c, s).registry, b).value.vertical == 0.0
  {
  }

  /** A direction request naming UP or DOWN succeeds but leaves the fixed direction as it was. */
  lemma VerticalDirectionIgnored(token: string, b: Block, r: Registry, c: Config, s: Server)
    requires Upper(token) == Up.Name() || Upper(token) == Down.Name()
    requires b in r.pads || IsMaterialWhitelisted(c, s.materialAt(b))
    ensures ValueParses(Request(FixedDirection, Some(token)), s)
    ensures HandleRequest(Request(FixedDirection, Some(token)), b, r, c, s).success
    ensures Get(HandleRequest(Request(FixedDirection, Some(token)), b, r, c, s).registry, b).value.fixedDirection
            == Target(r, b).fixedDirection
  {
    var q := Request(FixedDirection, Some(token));
    VerticalDirectionIsValid(token, s);
    assert ValueParses(q, s);
    var h := HandleRequest(q, b, r, c, s);
    assert h.success;
    assert Get(h.registry, b) == Some(Modify(Target(r, b), q, s));
    assert RequestedFace(q).value.ModY() != 0;
  }

  // ---------------------------------------------------------------------------
  // The batch loop of `onLaunchpadClick`

  /** The state after applying a sequence of requests: registry, store, and the requests that failed, in order. */
  datatype Batch = Batch(registry: Registry, store: Store, failed: seq<Request>)

  predicate AllParse(order: seq<Request>, s: Server) {
    forall i :: 0 <= i < |order| ==> ValueParses(order[i], s)
  }

  lemma AllParseTail(order: seq<Request>, s: Server)
    requires AllParse(order, s) && |order| > 0
    ensures ValueParses(order[0], s) && AllParse(order[1..], s)
  {
    forall i | 0 <= i < |order| - 1 ensures ValueParses(order[1..][i], s) {
      assert order[1..][i] == order[i + 1];
    }
  }

  /**
   * The clicked block's entry after one request, seen from that block alone:
   * an unregistered block whose material is not whitelisted stays
   * unregistered; REMOVE unregisters a registered block; anything else stores
   * the modified launchpad (a fresh one when none was registered).
   */
  function EntryAfter(e: Option<LaunchpadBlock>, q: Request, b: Block, whitelisted: bool, s: Server): Option<LaunchpadBlock>
    requires ValueParses(q, s)
  {
    if e.None? && !whitelisted then e
    else if q.action == Remove && e.Some? then None
    else Some(Modify(if e.Some? then e.value else Fresh(b), q, s))
  }

  /** `EntryAfter` applied to each request in turn. */
  function EntryAfterAll(e: Option<LaunchpadBlock>, order: seq<Request>, b: Block, whitelisted: bool, s: Server)
    : Option<LaunchpadBlock>
    requires AllParse(order, s)
    decreases |order|
  {
    if |order| == 0 then e
    else
      AllParseTail(order, s);
      EntryAfterAll(EntryAfter(e, order[0], b, whitelisted, s), order[1..], b, whitelisted, s)
  }

  /** `Modify` applied to each request in turn. */
  function ModifyAll(p: LaunchpadBlock, order: seq<Request>, s: Server): LaunchpadBlock
    requires AllParse(order, s)
    decreases |order|
  {
    if |order| == 0 then p
    else
      AllParseTail(order, s);
      ModifyAll(Modify(p, order[0], s), order[1..], s)
  }

  /**
   * The loop of `onLaunchpadClick`, in the iteration order `order`: each request
   * is handled against the registry as the earlier ones left it, and a failed
   * request is added back to the player's pending set.
   */
  function ApplyBatch(order: seq<Request>, player: PlayerId, b: Block, r: Registry, st: Store, c: Config, s: Server)
    : (bt: Batch)
    requires AllParse(order, s)
    ensures |bt.failed| <= |order|
    ensures forall q :: q in bt.failed ==> q in order
    ensures forall d :: d != b ==> Get(bt.registry, d) == Get(r, d)
    ensures Get(bt.registry, b) == EntryAfterAll(Get(r, b), order, b, IsMaterialWhitelisted(c, s.materialAt(b)), s)
    ensures WellFormed(r) ==> WellFormed(bt.registry)
    decreases |order|
  {
    if |order| == 0 then Batch(r, st, [])
    else
      AllParseTail(order, s);
      var q := order[0];
      var h := HandleRequest(q, b, r, c, s);
      var st1 := if h.success then st else AddRequest(st, player, q);
      var rest := ApplyBatch(order[1..], player, b, h.registry, st1, c, s);
      Batch(rest.registry, rest.store, (if h.success then [] else [q]) + rest.failed)
  }

  /**
   * The batch adds exactly the failed requests to the player's pending set
   * (which the click has just drained) and touches no other player's set.
   */
  lemma {:induction false} BatchRequeuesFailed(order: seq<Request>, player: PlayerId, b: Block, r: Registry, st: Store, c: Config, s: Server)
    requires AllParse(order, s)
    ensures var bt := ApplyBatch(order, player, b, r, st, c, s);
      && PendingOf(bt.store, player) == PendingOf(st, player) + (set q | q in bt.failed)
      && (player in bt.store <==> player in st || |bt.failed| > 0)
      && forall o :: o != player ==> Lookup(bt.store, o) == Lookup(st, o)
  {
    BatchPendingGrows(order, player, b, r, st, c, s);
    BatchKeepsPlayerEntry(order, player, b, r, st, c, s);
    BatchKeepsOthers(order, player, b, r, st, c, s);
  }

  /** One step of the batch on the store: a failed request is added back, a successful one leaves the store as it was. */
  lemma RequeueStep(st: Store, player: PlayerId, q: Request, success: bool)
    ensures var st1 := if success then st else AddRequest(st, player, q);
      && PendingOf(st1, player) == PendingOf(st, player) + (if success then {} else {q})
      && (player in st1 <==> player in st || !success)
      && forall o :: o != player ==> Lookup(st1, o) == Lookup(st, o)
  {
  }

  lemma HeadElements(head: seq<Request>, rest: seq<Request>)
    requires |head| <= 1
    ensures (set x | x in head + rest) == (set x | x in head) + set x | x in rest
  {
  }

  lemma {:induction false} BatchPendingGrows(order: seq<Request>, player: PlayerId, b: Block, r: Registry, st: Store, c: Config, s: Server)
    requires AllParse(order, s)
    ensures var bt := ApplyBatch(order, player, b, r, st, c, s);
      PendingOf(bt.store, player) == PendingOf(st, player) + (set q | q in bt.failed)
    decreases |order|
  {
    if |order| > 0 {
      AllParseTail(order, s);
      var q := order[0];
      var h := HandleRequest(q, b, r, c, s);
      RequeueStep(st, player, q, h.success);
      var st1 := if h.success then st else AddRequest(st, player, q);
      var rest := ApplyBatch(order[1..], player, b, h.registry, st1, c, s);
      BatchPendingGrows(order[1..], player, b, h.registry, st1, c, s);
      var head := if h.success then [] else [q];
      HeadElements(head, rest.failed);
      assert (set x | x in head) == (if h.success then {} else {q});
    }
  }

  lemma {:induction false} BatchKeepsPlayerEntry(order: seq<Request>, player: PlayerId, b: Block, r: Registry, st: Store, c: Config, s: Server)
    requires AllParse(order, s)
    ensures var bt := ApplyBatch(order, player, b, r, st, c, s);
      player in bt.store <==> player in st || |bt.failed| > 0
    decreases |order|
  {
    if |order| > 0 {
      AllParseTail(order, s);
      var q := order[0];
      var h := HandleRequest(q, b, r, c, s);
      RequeueStep(st, player, q, h.success);
      var st1 := if h.success then st else AddRequest(st, player, q);
      BatchKeepsPlayerEntry(order[1..], player, b, h.registry, st1, c, s);
    }
  }

  lemma {:induction false} BatchKeepsOthers(order: seq<Request>, player: PlayerId, b: Block, r: Registry, st: Store, c: Config, s: Server)
    requires AllParse(order, s)
    ensures var bt := ApplyBatch(order, player, b, r, st, c, s);
      forall o :: o != player ==> Lookup(bt.store, o) == Lookup(st, o)
    decreases |order|
  {
    if |order| > 0 {
      AllParseTail(order, s);
      var q := order[0];
      var h := HandleRequest(q, b, r, c, s);
      RequeueStep(st, player, q, h.success);
      var st1 := if h.success then st else AddRequest(st, player, q);
      BatchKeepsOthers(order[1..], player, b, h.registry, st1, c, s);
    }
  }

  /** On a whitelisted material every request succeeds, whatever the order. */
  lemma {:induction false} WhitelistedBatchSucceeds(order: seq<Request>, player: PlayerId, b: Block, r: Registry, st: Store, c: Config, s: Server)
    requires AllParse(order, s)
    requires IsMaterialWhitelisted(c, s.materialAt(b))
    ensures ApplyBatch(order, player, b, r, st, c, s).failed == []
    decreases |order|
  {
    if |order| > 0 {
      AllParseTail(order, s);
      var h := HandleRequest(order[0], b, r, c, s);
      WhitelistedBatchSucceeds(order[1..], player, b, h.registry, st, c, s);
    }
  }

  /** On an unregistered block whose material is not whitelisted, every request fails and the registry is untouched. */
  lemma {:induction false} RejectedBatch(order: seq<Request>, player: PlayerId, b: Block, r: Registry, st: Store, c: Config, s: Server)
    requires AllParse(order, s)
    requires b !in r.pads && !IsMaterialWhitelisted(c, s.materialAt(b))
    ensures ApplyBatch(order, player, b, r, st, c, s).failed == order
    ensures ApplyBatch(order, player, b, r, st, c, s).registry == r
    decreases |order|
  {
    if |order| > 0 {
      AllParseTail(order, s);
      RejectedBatch(order[1..], player, b, r, AddRequest(st, player, order[0]), c, s);
    }
  }

  /** On a registered block, a batch without REMOVE keeps the block registered and succeeds throughout. */
  lemma {:induction false} RegisteredBatchWithoutRemove(order: seq<Request>, player: PlayerId, b: Block, r: Registry, st: Store, c: Config, s: Server)
    requires AllParse(order, s)
    requires b in r.pads
    requires forall i :: 0 <= i < |order| ==> order[i].action != Remove
    ensures ApplyBatch(order, player, b, r, st, c, s).failed == []
    ensures b in ApplyBatch(order, player, b, r, st, c, s).registry.pads
    decreases |order|
  {
    if |order| > 0 {
      AllParseTail(order, s);
      var h := HandleRequest(order[0], b, r, c, s);
      RegisteredBatchWithoutRemove(order[1..], player, b, h.registry, st, c, s);
    }
  }

  /**
   * Without REMOVE, a block that is registered, or whitelisted and given at
   * least one request, ends up holding its launchpad with every request applied in order.
   */
  lemma {:induction false} EntryAfterAllWithoutRemove(e: Option<LaunchpadBlock>, order: seq<Request>, b: Block, whitelisted: bool, s: Server)
    requires AllParse(order, s)
    requires forall i :: 0 <= i < |order| ==> order[i].action != Remove
    requires e.Some? || (whitelisted && |order| > 0)
    ensures EntryAfterAll(e, order, b, whitelisted, s) == Some(ModifyAll(if e.Some? then e.value else Fresh(b), order, s))
    decreases |order|
  {
    if |order| > 0 {
      AllParseTail(order, s);
      var e' := EntryAfter(e, order[0], b, whitelisted, s);
      assert forall i :: 0 <= i < |order[1..]| ==> order[1..][i].action != Remove by {
        forall i | 0 <= i < |order[1..]| ensures order[1..][i].action != Remove {
          assert order[1..][i] == order[i + 1];
        }
      }
      EntryAfterAllWithoutRemove(e', order[1..], b, whitelisted, s);
    }
  }

  /**
   * A batch without REMOVE on a registered block, or on a whitelisted one,
   * leaves the block holding its launchpad (a fresh one if it had none) with
   * every request applied in iteration order.
   */
  lemma BatchWithoutRemoveModifies(order: seq<Request>, player: PlayerId, b: Block, r: Registry, st: Store, c: Config, s: Server)
    requires AllParse(order, s)
    requires forall i :: 0 <= i < |order| ==> order[i].action != Remove
    requires b in r.pads || (IsMaterialWhitelisted(c, s.materialAt(b)) && |order| > 0)
    ensures Get(ApplyBatch(order, player, b, r, st, c, s).registry, b) == Some(ModifyAll(Target(r, b), order, s))
  {
    EntryAfterAllWithoutRemove(Get(r, b), order, b, IsMaterialWhitelisted(c, s.materialAt(b)), s);
  }

  /**
   * The iteration order matters: on a registered block whose material is not
   * whitelisted, REMOVE followed by a velocity change re-queues the change,
   * while the opposite order applies both.
   */
  lemma BatchOrderMatters(player: PlayerId, b: Block, r: Registry, st: Store, c: Config, s: Server)
    requires b in r.pads && !IsMaterialWhitelisted(c, s.materialAt(b))
    ensures ApplyBatch([Request(Remove, None), Request(HorizontalVelocity, None)], player, b, r, st, c, s).failed
            == [Request(HorizontalVelocity, None)]
    ensures ApplyBatch([Request(HorizontalVelocity, None), Request(Remove, None)], player, b, r, st, c, s).failed == []
  {
    var remove := Request(Remove, None);
    var clear := Request(HorizontalVelocity, None);
    var afterRemove := HandleRequest(remove, b, r, c, s);
    assert [remove, clear][1..] == [clear];
    assert ApplyBatch([clear], player, b, afterRemove.registry, st, c, s).failed == [clear];
    var afterClear := HandleRequest(clear, b, r, c, s);
    assert [clear, remove][1..] == [remove];
    assert ApplyBatch([remove], player, b, afterClear.registry, st, c, s).failed == [];
  }

  /** Re-queued requests keep the store well-formed when they came from it. */
  lemma {:induction false} BatchPreservesWellFormedStore(order: seq<Request>, player: PlayerId, b: Block, r: Registry, st: Store, c: Config, s: Server)
    requires AllParse(order, s)
    requires WellFormedStore(st, s)
    requires forall i :: 0 <= i < |order| ==> Storable(order[i], s)
    ensures WellFormedStore(ApplyBatch(order, player, b, r, st, c, s).store, s)
    decreases |order|
  {
    if |order| > 0 {
      AllParseTail(order, s);
      var q := order[0];
      var h := HandleRequest(q, b, r, c, s);
      var st1 := if h.success then st else AddRequest(st, player, q);
      if !h.success {
        AddPreservesWellFormed(st, player, q, s);
      }
      BatchPreservesWellFormedStore(order[1..], player, b, h.registry, st1, c, s);
    }
  }

  // ---------------------------------------------------------------------------
  // The event handler

  /** `order` lists every element of `requests` exactly once: one iteration order of the set. */
  predicate Enumerates(order: seq<Request>, requests: set<Request>) {
    && (forall q :: q in order ==> q in requests)
    && (forall q :: q in requests ==> q in order)
    && (forall i, j :: 0 <= i < j < |order| ==> order[i] != order[j])
  }

  /**
   * The registry, the store, the message sent (None when nothing is sent),
   * and whether the interaction is denied (`setUseItemInHand(DENY)` and
   * `setUseInteractedBlock(DENY)`: the item is not used and the block does not react).
   */
  datatype ClickOutcome = ClickOutcome(registry: Registry, store: Store, message: Option<Message>, denied: bool)

  /**
   * `onLaunchpadClick`. The pending set is a HashSet whose iteration order is
   * not specified, so `order` is any enumeration of it; the properties below
   * hold for every such order.
   */
  function OnLaunchpadClick(
    action: ClickAction, clicked: Option<Block>, player: PlayerId, order: seq<Request>,
    r: Registry, st: Store, c: Config, s: Server): (o: ClickOutcome)
    requires action == RightClickBlock && clicked.Some? && player in st ==>
      Enumerates(order, st[player]) && forall q :: q in st[player] ==> ValueParses(q, s)
    // Only a right-click on a block does anything.
    ensures action != RightClickBlock || clicked.None? ==> o == ClickOutcome(r, st, None, false)
    // No pending set: nothing changes and nothing is sent.
    ensures action == RightClickBlock && clicked.Some? && player !in st ==> o == ClickOutcome(r, st, None, false)
    ensures action == RightClickBlock && clicked.Some? && player in st && st[player] == {} ==>
      o == ClickOutcome(r, GetRequests(st, player).store, None, false)
    ensures action == RightClickBlock && clicked.Some? && player in st && st[player] != {} ==>
      && o.message.Some?
      // Afterwards the player's pending set holds exactly the requests that failed.
      && (o.message == Some(ModifiedLaunchpad) <==> player !in o.store)
      && PendingOf(o.store, player) <= st[player]
      && PendingOf(o.store, player) == set q | q in ApplyBatch(order, player, clicked.value, r, GetRequests(st, player).store, c, s).failed
      // The registry is what the batch made of it.
      && o.registry == ApplyBatch(order, player, clicked.value, r, GetRequests(st, player).store, c, s).registry
    // The interaction is denied exactly when the success message is sent.
    ensures o.denied <==> o.message == Some(ModifiedLaunchpad)
    ensures forall p :: p != player ==> Lookup(o.store, p) == Lookup(st, p)
    ensures clicked.Some? ==> forall d :: d != clicked.value ==> Get(o.registry, d) == Get(r, d)
    ensures WellFormed(r) ==> WellFormed(o.registry)
  {
    if action != RightClickBlock || clicked.None? then ClickOutcome(r, st, None, false)
    else
      var drained := GetRequests(st, player);
      if drained.requests.None? || drained.requests.value == {} then ClickOutcome(r, drained.store, None, false)
      else
        assert AllParse(order, s) by {
          forall i | 0 <= i < |order| ensures ValueParses(order[i], s) {
            assert order[i] in st[player];
          }
        }
        var bt := ApplyBatch(order, player, clicked.value, r, drained.store, c, s);
        BatchRequeuesFailed(order, player, clicked.value, r, drained.store, c, s);
        var message := if bt.failed == [] then ModifiedLaunchpad else NotWhitelisted;
        ClickOutcome(bt.registry, bt.store, Some(message), bt.failed == [])
  }

  /** On a whitelisted material the whole batch applies and the success message is sent. */
  lemma WhitelistedClick(clicked: Block, player: PlayerId, order: seq<Request>, r: Registry, st: Store, c: Config, s: Server)
    requires player in st && st[player] != {}
    requires Enumerates(order, st[player]) && forall q :: q in st[player] ==> ValueParses(q, s)
    requires IsMaterialWhitelisted(c, s.materialAt(clicked))
    ensures OnLaunchpadClick(RightClickBlock, Some(clicked), player, order, r, st, c, s).message == Some(ModifiedLaunchpad)
    ensures player !in OnLaunchpadClick(RightClickBlock, Some(clicked), player, order, r, st, c, s).store
  {
    WhitelistedBatchSucceeds(order, player, clicked, r, GetRequests(st, player).store, c, s);
  }

  /**
   * On an unregistered block whose material is not whitelisted, nothing is
   * registered, every request goes back to the pending set, and the
   * not-whitelisted message is sent.
   */
  lemma RejectedClick(clicked: Block, player: PlayerId, order: seq<Request>, r: Registry, st: Store, c: Config, s: Server)
    requires player in st && st[player] != {}
    requires Enumerates(order, st[player]) && forall q :: q in st[player] ==> ValueParses(q, s)
    requires clicked !in r.pads && !IsMaterialWhitelisted(c, s.materialAt(clicked))
    ensures OnLaunchpadClick(RightClickBlock, Some(clicked), player, order, r, st, c, s)
            == ClickOutcome(r, st, Some(NotWhitelisted), false)
  {
    assert AllParse(order, s) by {
      forall i | 0 <= i < |order| ensures ValueParses(order[i], s) {
        assert order[i] in st[player];
      }
    }
    RejectedBatchRestores(order, player, clicked, r, st, c, s);
    var o := OnLaunchpadClick(RightClickBlock, Some(clicked), player, order, r, st, c, s);
    assert o.registry == r;
    assert o.store == st;
  }

  /** The rejected batch puts every drained request back: registry and store end as they began. */
  lemma RejectedBatchRestores(order: seq<Request>, player: PlayerId, clicked: Block, r: Registry, st: Store, c: Config, s: Server)
    requires player in st && st[player] != {}
    requires Enumerates(order, st[player]) && AllParse(order, s)
    requires clicked !in r.pads && !IsMaterialWhitelisted(c, s.materialAt(clicked))
    ensures ApplyBatch(order, player, clicked, r, GetRequests(st, player).store, c, s).registry == r
    ensures ApplyBatch(order, player, clicked, r, GetRequests(st, player).store, c, s).store == st
    ensures ApplyBatch(order, player, clicked, r, GetRequests(st, player).store, c, s).failed != []
  {
    var drained := GetRequests(st, player);
    RejectedBatch(order, player, clicked, r, drained.store, c, s);
    BatchRequeuesFailed(order, player, clicked, r, drained.store, c, s);
    var bt := ApplyBatch(order, player, clicked, r, drained.store, c, s);
    var q :| q in st[player];
    assert q in order;
    assert (set x | x in order) == st[player];
    assert PendingOf(bt.store, player) == st[player];
    SameStore(bt.store, st, player);
  }

  /** Two stores that agree on one player's set and on every other player's are equal. */
  lemma SameStore(a: Store, b: Store, player: PlayerId)
    requires player in a && player in b && a[player] == b[player]
    requires forall p :: p != player ==> Lookup(a, p) == Lookup(b, p)
    ensures a == b
  {
    forall p ensures p in a <==> p in b {
      if p != player {
        assert Lookup(a, p) == Lookup(b, p);
      }
    }
    forall p | p in a ensures a[p] == b[p] {
      if p != player {
        assert Lookup(a, p) == Lookup(b, p);
      }
    }
  }

  /** The click keeps the request store well-formed. */
  lemma ClickPreservesWellFormedStore(
    action: ClickAction, clicked: Option<Block>, player: PlayerId, order: seq<Request>,
    r: Registry, st: Store, c: Config, s: Server)
    requires WellFormedStore(st, s)
    requires action == RightClickBlock && clicked.Some? && player in st ==> Enumerates(order, st[player])
    ensures forall q :: player in st && q in st[player] ==> ValueParses(q, s)
    ensures WellFormedStore(OnLaunchpadClick(action, clicked, player, order, r, st, c, s).store, s)
  {
    forall q | player in st && q in st[player] ensures ValueParses(q, s) {
      StorableValueParses(q, s);
    }
    if action == RightClickBlock && clicked.Some? && player in st && st[player] != {} {
      var drained := GetRequests(st, player);
      DrainPreservesWellFormed(st, player, s);
      BatchPreservesWellFormedStore(order, player, clicked.value, r, drained.store, c, s);
    }
  }
}

=== FILE: options.dfy ===
/** The Some/None datatype used wherever the Java code returns or stores a nullable value. */
module Options {

  datatype Option<+T> = None | Some(value: T) {

    /** The wrapped value, or `default` for None (Java's `x != null ? x : default`). */
    function GetOr(default: T): T {
      match this
      case Some(v) => v
      case None => default
    }
  }
}

=== FILE: particle_config.dfy ===
/**
 * The particle settings of a launchpad material (LaunchpadParticleConfig.java
 * and ParticleMode.java): defaults for absent keys, fallbacks for unknown
 * names, and the density clamp. Drawing the particles is not modelled.
 */
module ParticleConfig {
  import opened Options

  /** `ParticleMode` */
  datatype ParticleMode = Single | Square | Circle | Pyramid | Sphere {
    function Name(): string {
      match this
      case Single => "SINGLE"
      case Square => "SQUARE"
      case Circle => "CIRCLE"
      case Pyramid => "PYRAMID"
      case Sphere => "SPHERE"
    }
  }

  /** `ParticleMode.valueOf`: an exact, case-sensitive name match; None for no match. */
  function ModeNamed(name: string): (r: Option<ParticleMode>)
    ensures r.Some? ==> r.value.Name() == name
    ensures r.None? ==> forall m: ParticleMode :: m.Name() != name
  {
    if name == "SINGLE" then Some(Single)
    else if name == "SQUARE" then Some(Square)
    else if name == "CIRCLE" then Some(Circle)
    else if name == "PYRAMID" then Some(Pyramid)
    else if name == "SPHERE" then Some(Sphere)
    else None
  }

  /** A particle type (`org.bukkit.Particle`), known by its enum name. */
  datatype Particle = Particle(name: string)

  /** The fallback particle type. */
  const Ash := Particle("ASH")

  /** A "particles" configuration section; None is an absent (or, for numbers, non-numeric) key. */
  datatype ParticleSection = ParticleSection(
    particleType: Option<string>,
    amount: Option<int>,
    offsetX: Option<real>,
    offsetY: Option<real>,
    offsetZ: Option<real>,
    heightOffset: Option<real>,
    extra: Option<real>,
    spawnDelay: Option<int>,
    mode: Option<string>,
    particleDensity: Option<real>)

  datatype ParticleSettings = ParticleSettings(
    mode: ParticleMode,
    particleType: Particle,
    amount: int,
    density: real,
    heightOffset: real,
    spawnDelay: int,
    offsetX: real,
    offsetY: real,
    offsetZ: real,
    extra: real)

  /**
   * The density rule: at most 0 becomes the default 0.1, above 360 becomes
   * 360, anything else is kept.
   */
  function ClampDensity(d: real): (r: real)
    ensures 0.0 < r <= 360.0
    ensures d <= 0.0 ==> r == 0.1
    ensures d > 360.0 ==> r == 360.0
    ensures 0.0 < d <= 360.0 ==> r == d
  {
    if d <= 0.0 then 0.1
    else if d > 360.0 then 360.0
    else d
  }

  lemma ClampDensityIdempotent(d: real)
    ensures ClampDensity(ClampDensity(d)) == ClampDensity(d)
  {
  }

  /**
   * The constructor. `isParticle` says which names `Particle.valueOf` accepts;
   * an absent or unknown type falls back to ASH, an absent or unknown mode to
   * SINGLE.
   */
  function FromSection(section: ParticleSection, isParticle: string -> bool): (p: ParticleSettings)
    ensures 0.0 < p.density <= 360.0
    ensures section.particleDensity.Some? ==> p.density == ClampDensity(section.particleDensity.value)
    ensures section.particleDensity.None? ==> p.density == 0.1
    ensures section.particleType.Some? && isParticle(section.particleType.value) ==>
      p.particleType == Particle(section.particleType.value)
    ensures section.particleType.None? || !isParticle(section.particleType.value) ==> p.particleType == Ash
    ensures section.mode.Some? && ModeNamed(section.mode.value).Some? ==> p.mode.Name() == section.mode.value
    ensures section.mode.None? || ModeNamed(section.mode.value).None? ==> p.mode == Single
    ensures p.amount == (if section.amount.Some? then section.amount.value else 30)
    ensures p.spawnDelay == (if section.spawnDelay.Some? then section.spawnDelay.value else 20)
    ensures p.offsetX == (if section.offsetX.Some? then section.offsetX.value else 0.5)
    ensures p.offsetY == (if section.offsetY.Some? then section.offsetY.value else 1.0)
    ensures p.offsetZ == (if section.offsetZ.Some? then section.offsetZ.value else 0.5)
    ensures p.heightOffset == (if section.heightOffset.Some? then section.heightOffset.value else 0.5)
    ensures p.extra == (if section.extra.Some? then section.extra.value else 0.0)
  {
    var particleType :=
      if section.particleType.Some? && isParticle(section.particleType.value) then Particle(section.particleType.value)
      else Ash;
    var mode :=
      if section.mode.Some? && ModeNamed(section.mode.value).Some? then ModeNamed(section.mode.value).value
      else Single;
    ParticleSettings(
      mode,
      particleType,
      section.amount.GetOr(30),
      ClampDensity(section.particleDensity.GetOr(0.1)),
      section.heightOffset.GetOr(0.5),
      section.spawnDelay.GetOr(20),
      section.offsetX.GetOr(0.5),
      section.offsetY.GetOr(1.0),
      section.offsetZ.GetOr(0.5),
      section.extra.GetOr(0.0))
  }

  /** An empty section yields every default. */
  lemma EmptySectionDefaults(isParticle: string -> bool)
    ensures FromSection(ParticleSection(None, None, None, None, None, None, None, None, None, None), isParticle)
            == ParticleSettings(Single, Ash, 30, 0.1, 0.5, 20, 0.5, 1.0, 0.5, 0.0)
  {
  }

  /** Every mode is found by its own name. */
  lemma ModeNamedName(m: ParticleMode)
    ensures ModeNamed(m.Name()) == Some(m)
  {
  }

  /** The mode name is case-sensitive: "circle" falls back to SINGLE. */
  lemma LowerCaseModeFallsBack(section: ParticleSection, isParticle: string -> bool)
    requires section.mode == Some("circle")
    ensures FromSection(section, isParticle).mode == Single
  {
    assert "circle" != "CIRCLE";
  }
}

=== FILE: requests.dfy ===
/**
 * The per-player store of pending modification requests
 * (ModificationRequestHandler.java): a map from player id to a set of
 * requests, with an insert and a destructive drain.
 */
module Requests {
  import opened Options
  import opened Host
  import opened Actions

  /** A player's unique id. */
  type PlayerId = string

  type Store = map<PlayerId, set<Request>>

  /** The player's pending set as `modificationRequests.get` sees it: None is null. */
  function Lookup(st: Store, p: PlayerId): (r: Option<set<Request>>)
    ensures r.Some? <==> p in st
    ensures r.Some? ==> r.value == st[p]
  {
    if p in st then Some(st[p]) else None
  }

  /** The player's pending requests, treating an absent set as empty. */
  function PendingOf(st: Store, p: PlayerId): set<Request> {
    if p in st then st[p] else {}
  }

  /** `addRequest`: creates the player's set if absent, then adds the request to it. */
  function AddRequest(st: Store, p: PlayerId, q: Request): (r: Store)
    ensures p in r && r[p] == PendingOf(st, p) + {q}
    ensures forall o :: o != p ==> Lookup(r, o) == Lookup(st, o)
  {
    var requests := if p in st then st[p] else {};
    st[p := requests + {q}]
  }

  /** The result of `getRequests`: the returned set (None is null) and the store afterwards. */
  datatype Drained = Drained(requests: Option<set<Request>>, store: Store)

  /** `getRequests`: removes the player's set from the store and returns it. */
  function GetRequests(st: Store, p: PlayerId): (d: Drained)
    ensures d.requests == Lookup(st, p)
    ensures p !in d.store
    ensures forall o :: o != p ==> Lookup(d.store, o) == Lookup(st, o)
  {
    Drained(Lookup(st, p), st - {p})
  }

  /** Adding a request already pending changes nothing. */
  lemma AddPendingRequest(st: Store, p: PlayerId, q: Request)
    requires p in st && q in st[p]
    ensures AddRequest(st, p, q) == st
  {
    var r := AddRequest(st, p, q);
    assert forall o :: o in r <==> o in st by {
      forall o ensures o in r <==> o in st {
        assert o != p ==> Lookup(r, o) == Lookup(st, o);
      }
    }
    forall o | o in r ensures r[o] == st[o] {
      assert o != p ==> Lookup(r, o) == Lookup(st, o);
    }
  }

  /** Draining twice returns the set and then nothing, and leaves the same store. */
  lemma DrainTwice(st: Store, p: PlayerId)
    ensures GetRequests(GetRequests(st, p).store, p).requests == None
    ensures GetRequests(GetRequests(st, p).store, p).store == GetRequests(st, p).store
  {
  }

  /** Draining after adding returns everything that was pending plus the new request. */
  lemma DrainAfterAdd(st: Store, p: PlayerId, q: Request)
    ensures GetRequests(AddRequest(st, p, q), p).requests == Some(PendingOf(st, p) + {q})
  {
  }

  /**
   * What the command front end maintains for every store: no player has an
   * empty pending set, and every pending request has the storable shape.
   */
  predicate WellFormedStore(st: Store, s: Server) {
    forall p :: p in st ==> st[p] != {} && forall q :: q in st[p] ==> Storable(q, s)
  }

  lemma AddPreservesWellFormed(st: Store, p: PlayerId, q: Request, s: Server)
    requires WellFormedStore(st, s) && Storable(q, s)
    ensures WellFormedStore(AddRequest(st, p, q), s)
  {
    var r := AddRequest(st, p, q);
    forall o | o in r ensures r[o] != {} && forall x :: x in r[o] ==> Storable(x, s) {
      if o != p {
        assert Lookup(r, o) == Lookup(st, o);
      }
    }
  }

  lemma DrainPreservesWellFormed(st: Store, p: PlayerId, s: Server)
    requires WellFormedStore(st, s)
    ensures WellFormedStore(GetRequests(st, p).store, s)
  {
  }
}

=== FILE: strings.dfy ===
/**
 * The small part of java.lang.String the plugin relies on: case folding for
 * `equalsIgnoreCase`/`toLowerCase`/`toUpperCase`, `contains`, `split(",")`,
 * and the decimal text of an `int` used in storage keys.
 *
 * Case folding covers the ASCII letters only; every other character folds to itself.
 */
module Strings {

  predicate IsUpperAscii(c: char) { 'A' <= c <= 'Z' }

  predicate IsLowerAscii(c: char) { 'a' <= c <= 'z' }

  function LowerChar(c: char): char {
    if IsUpperAscii(c) then (c as int + 32) as char else c
  }

  function UpperChar(c: char): char {
    if IsLowerAscii(c) then (c as int - 32) as char else c
  }

  /** `String.toLowerCase()` */
  function Lower(s: string): (r: string)
    ensures |r| == |s|
    ensures forall i :: 0 <= i < |s| ==> r[i] == LowerChar(s[i])
  {
    seq(|s|, i requires 0 <= i < |s| => LowerChar(s[i]))
  }

  /** `String.toUpperCase()` */
  function Upper(s: string): (r: string)
    ensures |r| == |s|
    ensures forall i :: 0 <= i < |s| ==> r[i] == UpperChar(s[i])
  {
    seq(|s|, i requires 0 <= i < |s| => UpperChar(s[i]))
  }

  /** `a.equalsIgnoreCase(b)`: same length and the same characters after folding. */
  predicate EqualsIgnoreCase(a: string, b: string) {
    Lower(a) == Lower(b)
  }

  lemma EqualsIgnoreCaseSameLength(a: string, b: string)
    requires EqualsIgnoreCase(a, b)
    ensures |a| == |b|
  {
    assert |Lower(a)| == |Lower(b)|;
  }

  predicate StartsWith(s: string, prefix: string) {
    |prefix| <= |s| && s[..|prefix|] == prefix
  }

  /** `s.contains(t)`: `t` occurs in `s` at some offset. */
  predicate Contains(s: string, t: string)
    decreases |s|
  {
    StartsWith(s, t) || (|s| > 0 && Contains(s[1..], t))
  }

  /** `contains` after lower-casing both strings. */
  predicate ContainsIgnoreCase(value: string, typed: string) {
    Contains(Lower(value), Lower(typed))
  }

  lemma EverythingContainsEmpty(s: string)
    ensures Contains(s, "")
  {
    assert StartsWith(s, "");
  }

  // ---------------------------------------------------------------------------
  // Splitting on ','

  /** Every comma-separated field of `s`, empty ones included. */
  function Fields(s: string): (r: seq<string>)
    ensures |r| >= 1
    ensures forall i :: 0 <= i < |r| ==> ',' !in r[i]
    decreases |s|
  {
    if |s| == 0 then [""]
    else if s[0] == ',' then [""] + Fields(s[1..])
    else
      var rest := Fields(s[1..]);
      [[s[0]] + rest[0]] + rest[1..]
  }

  function DropTrailingEmpty(xs: seq<string>): (r: seq<string>)
    ensures r <= xs
    ensures |r| == 0 || r[|r| - 1] != ""
    ensures forall i :: |r| <= i < |xs| ==> xs[i] == ""
    decreases |xs|
  {
    if |xs| > 0 && xs[|xs| - 1] == "" then DropTrailingEmpty(xs[..|xs| - 1]) else xs
  }

  /**
   * Java's `s.split(",")`: the fields between commas, with trailing empty
   * fields removed; a string without a comma splits into itself alone.
   */
  function Split(s: string): (r: seq<string>)
    ensures forall i :: 0 <= i < |r| ==> ',' !in r[i]
  {
    if ',' !in s then [s] else DropTrailingEmpty(Fields(s))
  }

  /** The parts joined with single commas; the inverse of `Split` on comma-free parts. */
  function Join(parts: seq<string>): string
    requires |parts| >= 1
    decreases |parts|
  {
    if |parts| == 1 then parts[0] else parts[0] + [','] + Join(parts[1..])
  }

  lemma {:induction false} FieldsOfCommaFree(a: string)
    requires ',' !in a
    ensures Fields(a) == [a]
    decreases |a|
  {
    if |a| > 0 {
      FieldsOfCommaFree(a[1..]);
      assert [a[0]] + a[1..] == a;
    }
  }

  lemma {:induction false} FieldsAfterField(a: string, b: string)
    requires ',' !in a
    ensures Fields(a + [','] + b) == [a] + Fields(b)
    decreases |a|
  {
    var s := a + [','] + b;
    if |a| == 0 {
      assert s[1..] == b;
    } else {
      assert s[1..] == a[1..] + [','] + b;
      FieldsAfterField(a[1..], b);
      assert [a[0]] + a[1..] == a;
    }
  }

  lemma {:induction false} FieldsOfJoin(parts: seq<string>)
    requires |parts| >= 1
    requires forall i :: 0 <= i < |parts| ==> ',' !in parts[i]
    ensures Fields(Join(parts)) == parts
    decreases |parts|
  {
    if |parts| == 1 {
      FieldsOfCommaFree(parts[0]);
    } else {
      FieldsAfterField(parts[0], Join(parts[1..]));
      FieldsOfJoin(parts[1..]);
    }
  }

  lemma JoinHasComma(parts: seq<string>)
    requires |parts| >= 2
    ensures ',' in Join(parts)
  {
    var s := Join(parts);
    assert s[|parts[0]|] == ',';
  }

  /** Splitting undoes joining, as long as no part holds a comma and the last part is not empty. */
  lemma SplitJoin(parts: seq<string>)
    requires |parts| >= 1
    requires forall i :: 0 <= i < |parts| ==> ',' !in parts[i]
    requires parts[|parts| - 1] != ""
    ensures Split(Join(parts)) == parts
  {
    if |parts| >= 2 {
      JoinHasComma(parts);
      FieldsOfJoin(parts);
    }
  }

  // ---------------------------------------------------------------------------
  // Decimal integers

  predicate IsDigit(c: char) { '0' <= c <= '9' }

  predicate AllDigits(s: string) { forall i :: 0 <= i < |s| ==> IsDigit(s[i]) }

  function DigitValue(c: char): nat
    requires IsDigit(c)
  {
    c as int - '0' as int
  }

  function DigitChar(d: nat): (c: char)
    requires d < 10
    ensures IsDigit(c) && DigitValue(c) == d
  {
    ('0' as int + d) as char
  }

  function NatToString(n: nat): (s: string)
    ensures |s| >= 1 && AllDigits(s)
    decreases n
  {
    if n < 10 then [DigitChar(n)] else NatToString(n / 10) + [DigitChar(n % 10)]
  }

  /** Java's decimal text of an integer (`"" + n`). */
  function IntToString(n: int): (s: string)
    ensures |s| >= 1 && ',' !in s
  {
    if n < 0 then "-" + NatToString(-n) else NatToString(n)
  }

  /** Optional minus sign followed by at least one decimal digit. */
  predicate IsIntegerText(s: string) {
    (|s| >= 1 && AllDigits(s)) || (|s| >= 2 && s[0] == '-' && AllDigits(s[1..]))
  }

  function ParseNat(s: string): nat
    requires AllDigits(s)
    decreases |s|
  {
    if |s| == 0 then 0 else 10 * ParseNat(s[..|s| - 1]) + DigitValue(s[|s| - 1])
  }

  /** The value of integer text. */
  function ParseInt(s: string): int
    requires IsIntegerText(s)
  {
    if s[0] == '-' then -(ParseNat(s[1..]) as int) else ParseNat(s)
  }

  lemma {:induction false} ParseNatToString(n: nat)
    ensures ParseNat(NatToString(n)) == n
    decreases n
  {
    if n >= 10 {
      var s := NatToString(n);
      assert s[..|s| - 1] == NatToString(n / 10);
      ParseNatToString(n / 10);
    }
  }

  /** The decimal text of every integer is integer text and reads back as that integer. */
  lemma IntToStringRoundTrip(n: int)
    ensures IsIntegerText(IntToString(n))
    ensures ParseInt(IntToString(n)) == n
  {
    var s := IntToString(n);
    if n < 0 {
      assert s[1..] == NatToString(-n);
      ParseNatToString(-n);
    } else {
      ParseNatToString(n);
    }
  }
}

=== FILE: tab_complete_helper.dfy ===
/**
 * The tab-completion filter (TabCompleteHelper.java): keep the values that
 * contain the typed text, ignoring case, in their original order.
 */
module TabCompleteHelper {
  import opened Strings

  /** `xs` can be obtained from `ys` by deleting elements, keeping the order. */
  predicate IsSubsequence<T(==)>(xs: seq<T>, ys: seq<T>)
    decreases |ys|
  {
    |xs| == 0 || (|ys| > 0 && ((xs[0] == ys[0] && IsSubsequence(xs[1..], ys[1..])) || IsSubsequence(xs, ys[1..])))
  }

  /** `filterMatchingContains` */
  function FilterMatchingContains(values: seq<string>, typed: string): (r: seq<string>)
    ensures |r| <= |values|
    ensures forall x :: x in r ==> x in values && ContainsIgnoreCase(x, typed)
    ensures forall x :: x in values && ContainsIgnoreCase(x, typed) ==> x in r
    // every matching occurrence is kept, and nothing else
    ensures forall x :: multiset(r)[x] == (if ContainsIgnoreCase(x, typed) then multiset(values)[x] else 0)
    decreases |values|
  {
    if |values| == 0 then []
    else
      var rest := FilterMatchingContains(values[1..], typed);
      assert values == [values[0]] + values[1..];
      if ContainsIgnoreCase(values[0], typed) then [values[0]] + rest else rest
  }

  /** The result keeps the original order: it is a subsequence of the values. */
  lemma {:induction false} FilterIsSubsequence(values: seq<string>, typed: string)
    ensures IsSubsequence(FilterMatchingContains(values, typed), values)
    decreases |values|
  {
    if |values| > 0 {
      var r := FilterMatchingContains(values, typed);
      var rest := FilterMatchingContains(values[1..], typed);
      FilterIsSubsequence(values[1..], typed);
      if ContainsIgnoreCase(values[0], typed) {
        assert r[0] == values[0] && r[1..] == rest;
      } else {
        assert r == rest;
        if |r| > 0 {
          assert IsSubsequence(r, values[1..]);
        }
      }
    }
  }

  lemma LowerEmpty()
    ensures Lower("") == ""
  {
  }

  /** Empty typed text keeps every value. */
  lemma {:induction false} FilterEmptyKeepsAll(values: seq<string>)
    ensures FilterMatchingContains(values, "") == values
    decreases |values|
  {
    if |values| > 0 {
      LowerEmpty();
      EverythingContainsEmpty(Lower(values[0]));
      FilterEmptyKeepsAll(values[1..]);
      assert [values[0]] + values[1..] == values;
    }
  }

  /** Filtering a filtered list again with the same text changes nothing. */
  lemma {:induction false} FilterIdempotent(values: seq<string>, typed: string)
    ensures FilterMatchingContains(FilterMatchingContains(values, typed), typed) == FilterMatchingContains(values, typed)
    decreases |values|
  {
    if |values| > 0 {
      var rest := FilterMatchingContains(values[1..], typed);
      FilterIdempotent(values[1..], typed);
      if ContainsIgnoreCase(values[0], typed) {
        var r := [values[0]] + rest;
        assert r[0] == values[0] && r[1..] == rest;
      }
    }
  }
}

=== FILE: tab_completer.dfy ===
/**
 * Tab completion for the `/launchpad` command (LaunchpadTabCompleter.java).
 * The completer caches its three lists on first use; since every list is a
 * constant of the server, the cache is modelled as the list itself.
 */
module TabCompleter {
  import opened Options
  import opened Strings
  import opened Host
  import opened Actions
  import opened TabCompleteHelper

  /** `getModificationActions`: every action's command name, in declaration order. */
  function ModificationActions(): (r: seq<string>)
    ensures |r| == |AllActions|
    ensures forall i :: 0 <= i < |r| ==> r[i] == AllActions[i].CommandName()
  {
    seq(|AllActions|, i requires 0 <= i < |AllActions| => AllActions[i].CommandName())
  }

  /** `getPositiveDoubles` */
  const PositiveDoubles: seq<string> := ["0.1", "0.5", "1", "1.5", "2"]

  /** The names of the faces in `faces` that pass the plane test, SELF excluded, in order. */
  function PlaneFaceNames(faces: seq<Face>, s: Server): (r: seq<string>)
    ensures forall x :: x in r <==> exists f :: f in faces && InXZPlane(f, s) && f != Self && f.Name() == x
    decreases |faces|
  {
    if |faces| == 0 then []
    else
      var rest := PlaneFaceNames(faces[1..], s);
      assert forall f :: f in faces <==> f == faces[0] || f in faces[1..];
      if InXZPlane(faces[0], s) && faces[0] != Self then [faces[0].Name()] + rest else rest
  }

  /** `getBlockFaces` */
  function BlockFaces(s: Server): seq<string> {
    PlaneFaceNames(AllFaces, s)
  }

  /** The suggested directions are exactly the names of the level faces other than SELF. */
  lemma BlockFacesAreLevelFaces(x: string, s: Server)
    ensures x in BlockFaces(s) <==> exists f: Face :: f.Name() == x && f.ModY() == 0 && f != Self
  {
    if x in BlockFaces(s) {
      var f :| f in AllFaces && InXZPlane(f, s) && f != Self && f.Name() == x;
      InXZPlaneIffLevel(f, s);
    }
    if exists f: Face :: f.Name() == x && f.ModY() == 0 && f != Self {
      var f: Face :| f.Name() == x && f.ModY() == 0 && f != Self;
      InXZPlaneIffLevel(f, s);
      AllFacesListsEveryFace(f);
    }
  }

  /** `getTabCompletions`: the value suggestions for an action. */
  function TabCompletions(a: Action, s: Server): (r: seq<string>)
    ensures a == FixedDirection ==> r == BlockFaces(s)
    ensures a.IsVelocityAction() ==> r == PositiveDoubles
    ensures a == Add || a == Remove || a == Abort ==> r == []
  {
    match a
    case FixedDirection => BlockFaces(s)
    case HorizontalVelocity | VerticalVelocity | Velocities => PositiveDoubles
    case _ => []
  }

  /** `x` is some action's command name. */
  predicate IsCommandName(x: string) {
    exists a: Action :: a.CommandName() == x
  }

  /** The first-argument suggestions: the command names containing the typed text. */
  function ActionSuggestions(typed: string): (r: seq<string>)
    ensures forall x :: x in r <==> IsCommandName(x) && ContainsIgnoreCase(x, typed)
  {
    var names := ModificationActions();
    assert forall x :: x in names <==> IsCommandName(x) by {
      forall x ensures x in names <==> exists a: Action :: a.CommandName() == x {
        if exists a: Action :: a.CommandName() == x {
          var a: Action :| a.CommandName() == x;
          AllActionsListsEveryAction(a);
          var i :| 0 <= i < |AllActions| && AllActions[i] == a;
          assert names[i] == x;
        }
      }
    }
    FilterMatchingContains(names, typed)
  }

  /** The value suggestions of an action that contain the typed text. */
  function ValueSuggestions(a: Action, typed: string, s: Server): (r: seq<string>)
    ensures forall x :: x in r <==> x in TabCompletions(a, s) && ContainsIgnoreCase(x, typed)
  {
    FilterMatchingContains(TabCompletions(a, s), typed)
  }

  /** The action named by the first argument, if it still expects the argument being typed. */
  predicate ExpectsValue(arguments: seq<string>)
    requires |arguments| >= 1
  {
    FromCommandName(arguments[0]).Some? && |arguments| <= FromCommandName(arguments[0]).value.NeededArguments() + 1
  }

  /**
   * `onTabComplete`. The server always passes at least one argument (the
   * text being typed, possibly empty); the method indexes `arguments[0]`
   * unconditionally.
   */
  function OnTabComplete(arguments: seq<string>, s: Server): (r: seq<string>)
    requires |arguments| >= 1
    ensures |arguments| == 1 ==> r == ActionSuggestions(arguments[0])
    ensures |arguments| > 1 && !ExpectsValue(arguments) ==> r == []
    ensures |arguments| > 3 ==> r == []
    ensures 1 < |arguments| <= 3 && ExpectsValue(arguments) ==>
      r == ValueSuggestions(FromCommandName(arguments[0]).value, arguments[|arguments| - 1], s)
  {
    if |arguments| == 1 then ActionSuggestions(arguments[0])
    else
      var action := FromCommandName(arguments[0]);
      if action.None? || action.value.NeededArguments() + 1 < |arguments| then []
      else if |arguments| == 2 then ValueSuggestions(action.value, arguments[1], s)
      else if |arguments| == 3 then ValueSuggestions(action.value, arguments[2], s)
      else []
  }

  /** With one argument, the suggestions are the command names containing the typed text, ignoring case. */
  lemma ActionNameSuggestions(typed: string, x: string, s: Server)
    ensures x in OnTabComplete([typed], s) <==> IsCommandName(x) && ContainsIgnoreCase(x, typed)
  {
  }

  /** ADD, REMOVE and ABORT never get value suggestions. */
  lemma ArgumentlessActionsSuggestNothing(arguments: seq<string>, s: Server)
    requires |arguments| >= 2
    requires FromCommandName(arguments[0]) == Some(Add) || FromCommandName(arguments[0]) == Some(Remove)
             || FromCommandName(arguments[0]) == Some(Abort)
    ensures OnTabComplete(arguments, s) == []
  {
  }

  /** A direction suggestion is a level face other than SELF whose name contains the typed text. */
  lemma DirectionSuggestions(arguments: seq<string>, x: string, s: Server)
    requires |arguments| == 2 && FromCommandName(arguments[0]) == Some(FixedDirection)
    ensures x in OnTabComplete(arguments, s) <==>
      (exists f: Face :: f.Name() == x && f.ModY() == 0 && f != Self) && ContainsIgnoreCase(x, arguments[1])
  {
    assert OnTabComplete(arguments, s) == ValueSuggestions(FixedDirection, arguments[1], s);
    assert TabCompletions(FixedDirection, s) == BlockFaces(s);
    BlockFacesAreLevelFaces(x, s);
  }

  /** The second velocity of `velocities` is completed from the same list as the first. */
  lemma SecondVelocitySuggestions(arguments: seq<string>, x: string, s: Server)
    requires |arguments| == 3 && FromCommandName(arguments[0]) == Some(Velocities)
    ensures x in OnTabComplete(arguments, s) <==> x in PositiveDoubles && ContainsIgnoreCase(x, arguments[2])
  {
    assert OnTabComplete(arguments, s) == ValueSuggestions(Velocities, arguments[2], s);
  }
}

=== FILE: use_listener.dfy ===
/**
 * Launching players (LaunchpadUseListener.java): stepping on a pressure plate
 * or moving onto a launchpad block sets the player's velocity.
 */
module UseListener {
  import opened Options
  import opened Host
  import opened Configuration
  import opened Launchpads
  import opened BlockHandler

  /** A position in a world (`org.bukkit.Location` without rotation). */
  datatype Location = Location(world: string, x: real, y: real, z: real)

  /** `Location.getBlock()`: the block containing the position. */
  function BlockAt(l: Location): (b: Block)
    ensures b.world == l.world
    ensures b.x as real <= l.x < b.x as real + 1.0
    ensures b.y as real <= l.y < b.y as real + 1.0
    ensures b.z as real <= l.z < b.z as real + 1.0
  {
    Block(l.world, l.x.Floor, l.y.Floor, l.z.Floor)
  }

  /** `isSameLocation`: x, y and z agree; the world is not compared. */
  predicate IsSameLocation(a: Location, b: Location): (same: bool)
    ensures same && a.world == b.world ==> BlockAt(a) == BlockAt(b)
    ensures same <==> Vec3(a.x, a.y, a.z) == Vec3(b.x, b.y, b.z)
  {
    a.x == b.x && a.y == b.y && a.z == b.z
  }

  /** A launch: the face to launch along and the two speeds. */
  datatype Launch = Launch(face: Face, horizontal: real, vertical: real)

  /**
   * `launch(player, face, h, v)`: the face's unit direction scaled by `h`,
   * plus `v` upwards. It replaces the player's velocity.
   */
  function LaunchVelocity(l: Launch, s: Server): (v: Vec3)
    ensures l.face.ModY() == 0 ==> v.y == l.vertical
    ensures l.horizontal != 0.0 ==> (v.y == l.vertical <==> l.face.ModY() == 0)
    ensures l.horizontal == 0.0 ==> v == Vec3(0.0, l.vertical, 0.0)
  {
    VerticalComponent(l.face, s);
    Add(Scale(Direction(l.face, s), l.horizontal), Vec3(0.0, l.vertical, 0.0))
  }

  /** `launch(player, launchpadBlock)`: the fixed direction if any, else the facing, and the launchpad's velocities. */
  function FromLaunchpad(p: LaunchpadBlock, facing: Face, c: Config, s: Server): (l: Launch)
    ensures p.fixedDirection.Some? ==> l.face == p.fixedDirection.value
    ensures p.fixedDirection.None? ==> l.face == facing
    ensures l.horizontal >= 0.0 && l.vertical >= 0.0
    ensures l.horizontal == HorizontalVelocity(p, c, s) && l.vertical == VerticalVelocity(p, c, s)
  {
    var face := if p.fixedDirection.Some? then p.fixedDirection.value else facing;
    Launch(face, HorizontalVelocity(p, c, s), VerticalVelocity(p, c, s))
  }

  /** `launch(player, material)`: the facing and the material's configured defaults. */
  function FromMaterial(m: Material, facing: Face, c: Config): (l: Launch)
    ensures l.face == facing
    ensures l.horizontal >= 0.0 && l.vertical >= 0.0
    ensures l.horizontal == DefaultHorizontal(c, m) && l.vertical == DefaultVertical(c, m)
  {
    Launch(facing, DefaultHorizontal(c, m), DefaultVertical(c, m))
  }

  /**
   * The decision both handlers share once they have a block: a registered
   * launchpad launches with its own properties whatever its material; an
   * unregistered block launches only if its material is a launchpad material.
   */
  function Decide(b: Block, facing: Face, r: Registry, c: Config, s: Server): (l: Option<Launch>)
    ensures b in r.pads ==> l == Some(FromLaunchpad(r.pads[b], facing, c, s))
    ensures b !in r.pads && IsNotLaunchpadMaterial(c, s.materialAt(b)) ==> l.None?
    ensures b !in r.pads && !IsNotLaunchpadMaterial(c, s.materialAt(b)) ==> l == Some(FromMaterial(s.materialAt(b), facing, c))
    ensures l.Some? ==> l.value.horizontal >= 0.0 && l.value.vertical >= 0.0
  {
    var launchpad := Get(r, b);
    if launchpad.Some? then Some(FromLaunchpad(launchpad.value, facing, c, s))
    else if IsNotLaunchpadMaterial(c, s.materialAt(b)) then None
    else Some(FromMaterial(s.materialAt(b), facing, c))
  }

  /** `onPressurePlateUse`: only a physical interaction with a block counts. None means no launch. */
  function OnPressurePlateUse(action: ClickAction, clicked: Option<Block>, facing: Face, r: Registry, c: Config, s: Server)
    : (v: Option<Vec3>)
    ensures action != Physical || clicked.None? ==> v.None?
    ensures action == Physical && clicked.Some? ==>
      v == (var l := Decide(clicked.value, facing, r, c, s); if l.Some? then Some(LaunchVelocity(l.value, s)) else None)
  {
    if action != Physical || clicked.None? then None
    else
      var l := Decide(clicked.value, facing, r, c, s);
      if l.Some? then Some(LaunchVelocity(l.value, s)) else None
  }

  /**
   * The block a move lands on: the block at the destination, or, when that is
   * air, the block 0.2 below — None when that lower block is passable.
   */
  function Footing(to: Location, s: Server): (b: Option<Block>)
    ensures !s.isAir(s.materialAt(BlockAt(to))) ==> b == Some(BlockAt(to))
    ensures s.isAir(s.materialAt(BlockAt(to))) ==>
      var below := BlockAt(to.(y := to.y - 0.2));
      b == (if s.isPassable(below) then None else Some(below))
  {
    var block := BlockAt(to);
    if s.isAir(s.materialAt(block)) then
      var below := BlockAt(to.(y := to.y - 0.2));
      if s.isPassable(below) then None else Some(below)
    else Some(block)
  }

  /** `onMove`: None means no launch (including a move to no destination). */
  function OnMove(from: Location, to: Option<Location>, facing: Face, r: Registry, c: Config, s: Server): (v: Option<Vec3>)
    ensures to.None? || IsSameLocation(from, to.value) ==> v.None?
    ensures to.Some? && Footing(to.value, s).None? ==> v.None?
    // Pressure plates are left to the interaction handler.
    ensures to.Some? && Footing(to.value, s).Some? && s.isPressurePlate(s.materialAt(Footing(to.value, s).value)) ==> v.None?
    ensures v.Some? ==>
      && to.Some? && !IsSameLocation(from, to.value)
      && Footing(to.value, s).Some?
      && var b := Footing(to.value, s).value;
         !s.isPressurePlate(s.materialAt(b)) && Decide(b, facing, r, c, s).Some?
         && v.value == LaunchVelocity(Decide(b, facing, r, c, s).value, s)
    // Moving onto a block that launches, other than a pressure plate, launches the player.
    ensures to.Some? && !IsSameLocation(from, to.value) && Footing(to.value, s).Some? ==>
      var b := Footing(to.value, s).value;
      !s.isPressurePlate(s.materialAt(b)) && Decide(b, facing, r, c, s).Some? ==>
        v == Some(LaunchVelocity(Decide(b, facing, r, c, s).value, s))
  {
    if to.None? || IsSameLocation(from, to.value) then None
    else
      var footing := Footing(to.value, s);
      if footing.None? then None
      else
        var block := footing.value;
        if s.isPressurePlate(s.materialAt(block)) then None
        else
          var l := Decide(block, facing, r, c, s);
          if l.Some? then Some(LaunchVelocity(l.value, s)) else None
  }

  /** A registered launchpad with a fixed direction launches the same way whatever the player faces. */
  lemma FixedDirectionIgnoresFacing(b: Block, f1: Face, f2: Face, r: Registry, c: Config, s: Server)
    requires b in r.pads && r.pads[b].fixedDirection.Some?
    ensures OnPressurePlateUse(Physical, Some(b), f1, r, c, s) == OnPressurePlateUse(Physical, Some(b), f2, r, c, s)
  {
    assert Decide(b, f1, r, c, s) == Decide(b, f2, r, c, s);
    PressurePlateLaunches(b, f1, r, c, s);
    PressurePlateLaunches(b, f2, r, c, s);
  }

  /** Launching along a level face: the vertical speed is exactly the vertical velocity. */
  lemma LevelLaunchVertical(l: Launch, s: Server)
    requires l.face.ModY() == 0
    ensures LaunchVelocity(l, s).y == l.vertical
  {
    VerticalComponent(l.face, s);
  }

  /** In a well-formed registry, a launchpad's launch is never tilted by its fixed direction. */
  lemma RegisteredLaunchIsLevel(b: Block, facing: Face, r: Registry, c: Config, s: Server)
    requires WellFormed(r) && b in r.pads && facing.ModY() == 0
    ensures Decide(b, facing, r, c, s).Some?
    ensures LaunchVelocity(Decide(b, facing, r, c, s).value, s).y == VerticalVelocity(r.pads[b], c, s)
  {
    LevelLaunchVertical(Decide(b, facing, r, c, s).value, s);
  }

  /**
   * With the server's square roots exact, the horizontal speed of a launch
   * along a level face other than SELF is the launch's horizontal velocity.
   */
  lemma HorizontalSpeed(l: Launch, s: Server)
    requires s.invSqrt2 * s.invSqrt2 == 0.5 && s.invSqrt5 * s.invSqrt5 == 0.2
    requires l.face.ModY() == 0 && l.face != Self
    ensures var v := LaunchVelocity(l, s); v.x * v.x + v.z * v.z == l.horizontal * l.horizontal
  {
    var d := Direction(l.face, s);
    UnitLevelDirection(l.face, s);
    ScaledUnit(d.x, d.z, l.horizontal);
  }

  /** Scaling a unit vector by `h` gives a vector of length |h|. */
  lemma ScaledUnit(x: real, z: real, h: real)
    requires x * x + z * z == 1.0
    ensures (x * h) * (x * h) + (z * h) * (z * h) == h * h
  {
    calc {
      (x * h) * (x * h) + (z * h) * (z * h);
      (x * x + z * z) * (h * h);
    }
  }

  /** The direction of a level face other than SELF is a unit vector. */
  lemma UnitLevelDirection(f: Face, s: Server)
    requires s.invSqrt2 * s.invSqrt2 == 0.5 && s.invSqrt5 * s.invSqrt5 == 0.2
    requires f.ModY() == 0 && f != Self
    ensures Direction(f, s).x * Direction(f, s).x + Direction(f, s).z * Direction(f, s).z == 1.0
  {
  }

  /**
   * A launchpad fixed to EAST with horizontal velocity 2 and vertical velocity
   * 0.5 launches the player with velocity (2, 0.5, 0), whatever they face.
   */
  lemma EastLaunchpadScenario(b: Block, facing: Face, r: Registry, c: Config, s: Server)
    requires b in r.pads && r.pads[b] == LaunchpadBlock(b, 2.0, 0.5, Some(East))
    ensures OnPressurePlateUse(Physical, Some(b), facing, r, c, s) == Some(Vec3(2.0, 0.5, 0.0))
  {
    EastPlateLaunch(b, facing, r, c, s);
    EastLaunch(s);
  }

  lemma EastPlateLaunch(b: Block, facing: Face, r: Registry, c: Config, s: Server)
    requires b in r.pads && r.pads[b] == LaunchpadBlock(b, 2.0, 0.5, Some(East))
    ensures OnPressurePlateUse(Physical, Some(b), facing, r, c, s) == Some(LaunchVelocity(Launch(East, 2.0, 0.5), s))
  {
    assert Decide(b, facing, r, c, s) == Some(Launch(East, 2.0, 0.5));
    PressurePlateLaunches(b, facing, r, c, s);
  }

  /** Launching along EAST with velocities 2 and 0.5 gives (2, 0.5, 0). */
  lemma EastLaunch(s: Server)
    ensures LaunchVelocity(Launch(East, 2.0, 0.5), s) == Vec3(2.0, 0.5, 0.0)
  {
    EastDirection(s);
    AlongEast(Direction(East, s), 2.0, 0.5);
  }

  /** A physical interaction with a block that the decision accepts launches with the decided launch. */
  lemma PressurePlateLaunches(b: Block, facing: Face, r: Registry, c: Config, s: Server)
    requires Decide(b, facing, r, c, s).Some?
    ensures OnPressurePlateUse(Physical, Some(b), facing, r, c, s) == Some(LaunchVelocity(Decide(b, facing, r, c, s).value, s))
  {
  }

  lemma EastDirection(s: Server)
    ensures Direction(East, s) == Vec3(1.0, 0.0, 0.0)
  {
  }

  lemma AlongEast(d: Vec3, h: real, v: real)
    requires d == Vec3(1.0, 0.0, 0.0)
    ensures Add(Scale(d, h), Vec3(0.0, v, 0.0)) == Vec3(h, v, 0.0)
  {
  }
}
